=== FILE: README.md ===
# Budget-pacing bid controllers, modelled in Dafny

This project models the budget-pacing bidders of `src/Bidder.py` in an auction
simulator. Each bidder holds a per-iteration budget. Every class has
`charge(price, round, CTR, value)` and `update`, which starts a new iteration. The
other methods depend on the class:

- `BudgetRistrictedBidder` has no `bid` and no `reset`.
- `TruthfulBudgetRistricctedBidder` adds `bid` but has no `reset`.
- `IMPCBudgetBidder`, `BidCapBidder` and `SPBBidder` have `bid` and `reset`.
- `MPCBidder` has `bid` but no `reset`.

The IMPC family ignores the CTR and value passed to `charge`. `MPCBidder` uses them
to accumulate the estimated value of what it won.

The callers are not part of this model, so nothing here assumes how often each
method is called. In particular, the step-boundary test of `charge` happens only in
the rounds where `charge` is actually called.

The pacing bidders scale their truthful bid `value * CTR` by a multiplier
`roi_bid`, which they adjust at every step boundary (every `rounds_per_step`
rounds, round 0 included):

- **IMPC** (`IMPCBudgetBidder`) records the pair (multiplier, spend of the step).
  It inverts the observed bid -> spend curve to find the multiplier that would
  have spent the per-step target. The curve inversion is the `impc` solver:
  1. sort the pairs;
  2. merge near-equal bids;
  3. keep a spend-monotone "tails" array;
  4. interpolate linearly, or extrapolate through the origin.

  IMPC moves at most `bid_step` toward the solver's answer.
- **BidCap** is IMPC with the multiplier capped at 1.0.
- **SPB** is IMPC whose target comes from a fitted spend -> value curve.
- **MPC** runs a PID loop on the realised return on spend.

Every controller is an immutable datatype. Every method of the source is a pure
transition function.

| file | module | source |
|---|---|---|
| `common.dfy` | `Common` | `Option`; the epsilon `1e-6`; numpy-style min/max/clamp; sums; Python's `xs[-m:]`; the step-boundary test |
| `samples.dfy` | `Samples` | `[bid, spend]` pairs and Python's lexicographic `sorted` |
| `near_merge.dfy` | `NearMerge` | `aggregate_near_sample`, and a declarative segmentation it is proved equal to |
| `envelope.dfy` | `Envelope` | `increasing_subsequence`: recursive definition and the loop with its bisection |
| `solver.dfy` | `Solver` | `liner_solve`, `impc` |
| `budget.dfy` | `Budget` | `BudgetRistrictedBidder`, `TruthfulBudgetRistricctedBidder` |
| `impc_bidder.dfy` | `ImpcBidder` | `IMPCBudgetBidder`, `BidCapBidder` |
| `spb_bidder.dfy` | `SpbBidder` | `opt_spend`, `SPBBidder` |
| `mpc_bidder.dfy` | `MpcBidder` | `MPCBidder` |

Behaviour of the code that the model reproduces as written:

- `aggregate_near_sample` throws away the sample that closes a run. That sample
  does not open the next run (`NearMerge.BreakerIsDropped`).
- The result of `increasing_subsequence` is sorted by spend, not by bid
  (`Envelope.NotSortedByBid`).
- IMPC appends the new sample before it solves and cuts the history after, so the
  solver sees up to `memory + 1` samples.
- `target_step_spending` is fixed when the controller is built.
- `reset` leaves `step_spending` alone. A reset controller therefore equals a fresh
  one exactly when `step_spending` is zero (`ImpcBidder.ResetIsFresh`).
- `MPCBidder` has no `reset`, because its body is commented out.
- A run opened by a zero bid admits only negative bids, so two samples with bid 0
  do not merge. Under a negative first bid the threshold `b * (1 + 1e-6)` lies below
  `b`, so not even an identical sample joins (`NearMerge.Near`).
- `xs[-m:]` is modelled for every integer `m`:
  - `m == 0` keeps everything;
  - a negative `m` drops the first `-m` entries.

  Length bounds on histories are stated for `memory >= 1`.

Two consequences of the code that are easy to misread:

- `opt_spend(a, b)` returns `(2 - 2b) / a`. For the fitted curve
  `v(s) = (sqrt(b^2 + 2 a s) - b) / a` of `spend2value`, that spend is the
  break-even point `v(s) == s` whenever `b <= 2` (`SpbBidder.OptSpendBreaksEven`).
  It is not the point of marginal value 1, which would be `(1 - b^2) / (2a)`.
- `impc([[1,10],[2,20]], 15)` returns 1.5, but not by interpolating between the two
  samples. The second sample closes the first one's run in `aggregate_near_sample`
  and is dropped, so the answer comes from extrapolating through the origin and
  `(1, 10)` (`Solver.TwoSampleExample`).

The model makes these stand-ins:

- The constructor's budget draw `rng.uniform(...)` becomes a `budget` parameter.
- The least-squares fit `fit_model` becomes an oracle parameter of
  `SpbBidder.SpbUpdate`. The oracle returns `Fitted(a, b)` or `FitFailed`.
- `contexts is None` in `update` becomes `data == None`.
- `np.sum(prices[won_mask])` becomes `Common.SumWhere`.
- Division by zero in the constructor and the remainder by `rounds_per_step`
  would raise in Python. Both are excluded by requiring the divisors to be
  non-zero.

## Model

| member | source | states |
|---|---|---|
| Common.PySuffix | src/Bidder.py:152 | `xs[-m:]` keeps the last `min(len, m)` entries for positive `m`, keeps everything for `m == 0`, and drops the first `-m` entries for negative `m` |
| Common.Clamp | src/Bidder.py:143 | `minimum(maximum(x, lo), hi)` never exceeds `hi`; it is at least `lo` when the window is non-empty; it is `x` itself inside the window, `hi` when `x >= hi`, and `lo` when `x <= lo` and the window is non-empty; when the window is empty (`lo > hi`) it is `hi` |
| Common.Kept | src/Bidder.py:228 | `xs[mask]` has exactly as many entries as `mask` has set flags, contains every flagged entry and nothing that is not in `xs`; it is all of `xs` under an all-true mask and empty under an all-false one |
| Common.KeptAppend | src/Bidder.py:228 | masking distributes over concatenation of entries and flags; with `KeptSingle` (a single entry is kept exactly when its flag is set) this fixes `xs[mask]` as the flagged entries in their original order |
| Common.KeptSingle | src/Bidder.py:228 | a one-entry selection is that entry when its flag is set and empty otherwise |
| Common.SumWhere | src/Bidder.py:228 | `np.sum(xs[mask])` is the sum of the masked selection `Kept(xs, mask)`: the plain sum under an all-true mask and 0 under an all-false one |
| Common.Remember | src/Bidder.py:228-231 | appending `x` and cutting to `[-m:]` gives, for `m >= 1`, the newest `min(len + 1, m)` entries of the old history followed by `x`, so 1 to `m` entries ending in `x`; for `m == 0` the whole history plus `x` |
| Common.IsBoundary | src/Bidder.py:148 | `cur_round % rounds_per_step == 0`, written with Euclidean `%`, holds exactly when Python's floored remainder `round - n * floor(round / n)` is zero, and exactly when `round` is a multiple of `n`; this holds for every sign of either operand (also :213, :279) |
| Common.RemainderZeroAgrees | src/Bidder.py:148 | Euclidean and floored remainders vanish on the same integers, for any non-zero divisor |
| Common.MultipleIsBoundary | src/Bidder.py:148 | every multiple of `rounds_per_step`, round 0 included, is a step boundary |
| Samples.SortSamples | src/Bidder.py:107 | `sorted` returns a permutation of its input (same multiset) that is lexicographically sorted by (bid, spend) |
| NearMerge.Near | src/Bidder.py:70 | `s[0] < current[0][0] * (1 + distance)`: a positive first bid admits every bid at or below it; a zero first bid admits exactly the negative bids; a negative first bid admits no bid at or above it, not even an identical sample |
| NearMerge.NearIsRelativeGap | src/Bidder.py:70 | for a positive first bid, joining the run means a relative gap `(s - b) / b` below `1e-6` |
| NearMerge.Scan | src/Bidder.py:66-79 | each loop state emits at least the means already emitted and at most one mean per remaining sample; it emits a new one whenever samples remain |
| NearMerge.AggregateNearSample | src/Bidder.py:66-79 | the output is no longer than the input, and it is empty exactly when the input is empty |
| NearMerge.Segments | src/Bidder.py:69-74 | the loop's cut of the input is a valid segmentation: runs near their first bid, each closed by a breaker that is not near, and only the last run may be open |
| NearMerge.SegmentationUnique | src/Bidder.py:69-74 | a sequence of samples has only one valid segmentation into runs and breakers |
| NearMerge.ScanIsMeans | src/Bidder.py:69-77 | every loop state emits the means already emitted, followed by the run means of the segmentation of the open run plus the unread samples |
| NearMerge.AggregateIsRunMeans | src/Bidder.py:66-79 | the output is exactly the list of coordinate-wise means of the contiguous near-bid runs, and the samples that break runs are absent |
| NearMerge.BreakerIsDropped | src/Bidder.py:70-74 | with bids 1, 2, 3 the middle sample closes the first run and is lost: the output is the first and third samples |
| NearMerge.NearDuplicatesMerge | src/Bidder.py:70-77 | two samples at the same bid merge into their coordinate-wise mean |
| NearMerge.Mean | src/Bidder.py:73 | the coordinate-wise mean of a run, times the run's length, gives back the run's bid total and spend total |
| NearMerge.BidSumBetween | src/Bidder.py:73 | when every bid of a run lies in `[lo, hi]`, the run's bid total lies between `lo` and `hi` times its length |
| NearMerge.SpendSumBetween | src/Bidder.py:73 | the same bound for the spend total |
| NearMerge.MeanWithin | src/Bidder.py:73-77 | the merged point of a run lies, coordinate by coordinate, within any band that holds every sample of the run |
| Envelope.UpperBound | src/Bidder.py:85-92 | the bisection target: every slot before it has spend at most `x`, and the slot at it has spend greater than `x` |
| Envelope.BisectRight | src/Bidder.py:85-92 | on a spend-sorted array the `while l < r` bisection returns the first slot with strictly greater spend |
| Envelope.Place | src/Bidder.py:93-96 | one outer step either appends (no greater slot) or overwrites exactly the first slot with strictly greater spend; the array stays spend-sorted and holds only old entries or the new sample |
| Envelope.IncreasingSubsequence | src/Bidder.py:82-97 | the result is sorted by spend, no longer than the input, empty exactly for empty input, and every element comes from the input |
| Envelope.IncreasingSubsequenceLoop | src/Bidder.py:82-97 | the loop with its inner bisection computes the same array as the recursive definition |
| Envelope.NotSortedByBid | src/Bidder.py:89-96 | a later low-spend sample overwrites slot 0, so the result is not sorted by bid |
| Solver.LinearSolve | src/Bidder.py:100-103 | anchors closer than `1e-6` give the average of the ordinates; otherwise the result lies on the line through both anchors |
| Solver.LinearSolveEndpoints | src/Bidder.py:100-103 | away from the degenerate case the line returns `y1` at `x1` and `y2` at `x2` |
| Solver.LinearSolveBetween | src/Bidder.py:100-103 | between its anchors the interpolated value lies between the two ordinates |
| Solver.Curve | src/Bidder.py:107-109 | the processed samples are spend-sorted, no more numerous than the raw ones, and empty exactly when there are none |
| Solver.FirstReaching | src/Bidder.py:112-118 | the walk stops at the first sample whose spend reaches the target |
| Solver.Impc | src/Bidder.py:106-111 | with no recorded samples the multiplier is 1.0 |
| Solver.Invert | src/Bidder.py:110-122 | an empty processed curve gives 1.0; the bracket and extrapolation cases are the lemmas `InvertInterpolates` and `InvertExtrapolates` |
| Solver.InvertExtrapolates | src/Bidder.py:121-122 | when every processed spend is below the target, the answer is the line through the origin and the last processed sample |
| Solver.ThroughOrigin | src/Bidder.py:122 | extrapolation through the origin keeps the last sample's bid/spend ratio, or gives half its bid when its spend is below `1e-6` |
| Solver.InvertInterpolates | src/Bidder.py:115-120 | otherwise the answer interpolates between the last sample with spend below the target (or the origin) and the first one reaching it; every later sample also reaches it |
| Solver.InvertWithinBracket | src/Bidder.py:119-120 | with a non-degenerate bracket containing the target, the answer lies between the bracket's two bids |
| Solver.TwoSampleExample | src/Bidder.py:106-122 | for the samples (1, 10) and (2, 20) and target 15 the answer is 1.5, obtained by extrapolation |
| Budget.NewAccount | src/Bidder.py:41-45 | a new bidder has its budget and nothing spent |
| Budget.Charge | src/Bidder.py:47-48 | a charge never changes the budget, and a non-negative price never lowers the spending |
| Budget.EndIteration | src/Bidder.py:50-51 | `update` starts the iteration's spending from zero and keeps the budget |
| Budget.Gate | src/Bidder.py:61-63 | every budgeted `bid` returns the proposed amount while spending is below budget and 0 once it is not |
| Budget.TruthfulBid | src/Bidder.py:60-63 | the truthful budgeted bid is `value * CTR` while spending is below budget, and 0 once it is not |
| Budget.ChargeAllSpending | src/Bidder.py:47-48 | after a sequence of charges the spending is the old spending plus the sum of the prices; with non-negative prices it never decreases |
| Budget.ExhaustedStaysSilent | src/Bidder.py:60-63 | once the budget is exhausted, no sequence of non-negative charges reopens the gate before `update` |
| ImpcBidder.NewImpc | src/Bidder.py:127-136 | a new controller keeps its configuration, has multiplier 1.0, an empty history, nothing spent, and a step target equal to its share of the budget |
| ImpcBidder.StepTarget | src/Bidder.py:131 | `amount * rounds_per_step / rounds_per_iter`: the per-step share times `rounds_per_iter` is `amount * rounds_per_step`, and it is `amount` itself when a step is the whole iteration |
| ImpcBidder.CalcRoiBid | src/Bidder.py:138-143 | with step spend below `1e-6` the multiplier rises by exactly one step. Otherwise it stays within one step of the old value: it is the solver's answer when that is in the window, the old value plus one step when the answer is at or above the window, and the old value minus one step when it is at or below |
| ImpcBidder.CloseStep | src/Bidder.py:150-152 | closing a step adopts the new multiplier, clears the step spend, and keeps the newest `min(len, memory)` samples |
| ImpcBidder.ImpcCharge | src/Bidder.py:145-152 | off a boundary only the two spend counters move, each by the price. On a boundary the step spend becomes 0, the history length becomes `min(old + 1, memory)`, and its newest entry is (old multiplier, step spend). The multiplier is the old one plus `bid_step` when the step spend is below `1e-6`; otherwise it stays within `bid_step` of the old one and follows the solver run on the appended history |
| ImpcBidder.ImpcBid | src/Bidder.py:154-157 | the bid is `value * CTR * roi_bid` while spending is below budget, and 0 otherwise |
| ImpcBidder.ImpcUpdate | src/Bidder.py:159-160 | `update` zeroes the iteration spending and changes nothing else |
| ImpcBidder.ImpcReset | src/Bidder.py:162-165 | `reset` restores multiplier 1.0, an empty history and zero spending, and keeps the step spend |
| ImpcBidder.BidCapCharge | src/Bidder.py:168-172 | after any charge the multiplier is at most 1.0. It is the IMPC result when that is at most 1.0, and otherwise 1.0 with everything else as in IMPC |
| ImpcBidder.InvPreserved | src/Bidder.py:145-165 | charge, update and reset keep the step target equal to the budget's share and the history within `memory` |
| ImpcBidder.ResetIsFresh | src/Bidder.py:162-165 | a reset controller equals a freshly built one exactly when the step spend is zero |
| ImpcBidder.ChargeRoundsAccount | src/Bidder.py:146 | within an iteration the IMPC account is the plain account charged with the same prices |
| ImpcBidder.ChargeRoundsDrift | src/Bidder.py:140-150 | across `n` charges the multiplier drifts at most `n * bid_step` from where it started |
| ImpcBidder.ExhaustedStaysSilent | src/Bidder.py:154-157 | with non-negative prices an exhausted IMPC controller bids 0 for the rest of the iteration |
| SpbBidder.NewSpb | src/Bidder.py:202-208 | a new SPB controller is a fresh IMPC controller with its `spb_memory` and `explore_bid_max`, no response model (`optimal_budget == -1`) and empty histories |
| SpbBidder.OptSpend | src/Bidder.py:179-180 | the optimum `s` satisfies `a s + 2 b == 2` |
| SpbBidder.OptSpendBreaksEven | src/Bidder.py:175-180 | at `s = opt_spend(a, b)` the square in `spend2value` is exact, so the fitted value equals the spend when `b <= 2` |
| SpbBidder.OptimalBudget | src/Bidder.py:237 | `minimum(opt_spend(a, b), budget)`: a positive result never exceeds the budget; with `a == 0` the result is the budget when `b < 1` and not positive otherwise |
| SpbBidder.SpbCharge | src/Bidder.py:210-223 | apart from the multiplier the state moves exactly as in IMPC. A trusted model paces to `optimal_budget`'s per-step share; without one the controller paces to the budget's share and caps the multiplier at `explore_bid_max` |
| SpbBidder.SpbAgreesWithImpc | src/Bidder.py:213-217 | a trusted model whose optimum is the whole budget makes SPB pace exactly like IMPC |
| SpbBidder.SpbExploresLikeCappedImpc | src/Bidder.py:218-221 | without a trusted model, SPB at a boundary is IMPC with the multiplier capped at `explore_bid_max` |
| SpbBidder.SpbUpdate | src/Bidder.py:226-240 | the two histories stay aligned. With data and `spb_memory >= 1`, each has 1 to `spb_memory` entries and becomes the newest `min(len + 1, spb_memory)` entries of the old history followed by this iteration's won spend (the sum of the won prices) or value. Without data both histories are unchanged, so empty histories stay empty. `optimal_budget` is -1 with fewer than 2 entries or when the fit fails, and otherwise `minimum(opt_spend, budget)`. Spending is zeroed and the rest of the state is kept |
| SpbBidder.Refit | src/Bidder.py:232-240 | once the histories are settled: `optimal_budget` is -1 with fewer than 2 entries or a failed fit, otherwise `minimum(opt_spend(a, b), budget)`, and a positive result never exceeds the budget; spending is zeroed |
| SpbBidder.SpbReset | src/Bidder.py:242-246 | `reset` is the IMPC reset, and it also forgets the response model and both histories |
| SpbBidder.SpbInvPreserved | src/Bidder.py:210-246 | charge, update and reset keep the histories aligned and bounded, and a trusted optimum within the budget |
| SpbBidder.SpbResetIsFresh | src/Bidder.py:242-246 | a reset SPB controller equals a fresh one exactly when the step spend is zero |
| MpcBidder.NewMpc | src/Bidder.py:250-271 | a new MPC controller keeps its configuration and has multiplier 1.0, correction factor 1.0, empty histories and zeroed PID terms |
| MpcBidder.Accrue | src/Bidder.py:274-276 | a non-positive price leaves spending and estimated value unchanged; a positive one adds the price and `CTR * value`. Nothing else in the state changes |
| MpcBidder.Control | src/Bidder.py:290 | the control signal `kp * error_p + ki * error_i + kd * error_d` that `PidStep`, `MpcCharge` and `ChargeFollowsControl` steer with: with non-negative gains it is non-negative for non-negative errors and non-positive for non-positive ones, and with `ki == kd == 0` it is `kp * error_p` |
| MpcBidder.Steer | src/Bidder.py:292-294 | under control `u` the multiplier is `roi + u` when that is within one step and inside `[bid_min, bid_max]`. A signal of at least one step moves it a full step up (or down) when the range allows; a move that would leave the range from inside it saturates at `bid_max` (or `bid_min`). It does not fall below `min(roi, bid_max)` when `u >= 0` nor rise above `max(roi, bid_min)` when `u <= 0`. It always lands in a non-empty range, and within one step of `roi` when `roi` was in range |
| MpcBidder.PidStep | src/Bidder.py:280-294 | the proportional error is the corrected ROI minus 1, the integral grows by it, the derivative is its change, and it becomes the last error. The multiplier is the old one steered by the control `kp * error_p + ki * error_i + kd * error_d` (see `Steer`): it lands in `[bid_min, bid_max]`, within one step of the old value when that was in range |
| MpcBidder.MpcCharge | src/Bidder.py:273-296 | off a boundary only the accumulators move. On a boundary with positive spend and corrected value the PID errors update and the multiplier is the old one steered by the control computed from the new errors; otherwise the multiplier rises one step, capped at `bid_max` |
| MpcBidder.ChargeFollowsControl | src/Bidder.py:282-294 | on a boundary where the PID branch runs, the control computed from the new errors is applied as is inside both windows; a control of at least one step moves the multiplier a full step when the range allows, and saturates it at `bid_max` (or `bid_min`) when that step would leave the range; otherwise the multiplier moves in the control's direction unless the range forces it back |
| MpcBidder.MpcBid | src/Bidder.py:298-301 | the bid is `value * CTR * roi_bid` while spending is below budget, and 0 otherwise |
| MpcBidder.WonValues | src/Bidder.py:307 | `np.multiply(estimated_CTRs, values)` is the entrywise product |
| MpcBidder.PredictionDiff | src/Bidder.py:313-316 | the correction factor is the ratio of the history sums when both exceed 1, and 1.0 otherwise; it is always positive |
| MpcBidder.MpcUpdate | src/Bidder.py:303-316 | spending and estimated value are zeroed; the multiplier, PID terms and configuration are kept. With data and `memory >= 1`, each history becomes the newest `min(len + 1, memory)` entries of the old one followed by this iteration's realised value or won estimated value; the histories stay aligned and the correction factor is recomputed from their sums. Without data nothing else changes |
| MpcBidder.Absorb | src/Bidder.py:306-316 | given the iteration's realised value and its won estimated value: for `memory >= 1` each history keeps its newest entries followed by that total, with 1 to `memory` entries ending in it; the histories stay aligned; the correction factor is recomputed from the sums and stays positive; nothing else changes |
| MpcBidder.Recalibrate | src/Bidder.py:311-316 | the correction factor is recomputed from the sums of the installed histories, is positive, and nothing else changes |
| MpcBidder.NewMpcInv | src/Bidder.py:250-271 | a fresh controller whose window contains 1.0 satisfies the MPC invariant |
| MpcBidder.MpcInvPreserved | src/Bidder.py:273-314 | charge and update keep the multiplier in `[bid_min, bid_max]`, the correction factor positive, and the histories aligned and bounded |
| MpcBidder.IntegralGrowsUnderPositiveError | src/Bidder.py:283-287 | when the corrected ROI exceeds the target at a boundary, the proportional error is positive and the integral term strictly grows |
| MpcBidder.MpcChargeRoundsInv | src/Bidder.py:273-296 | over any run of charges the multiplier stays in `[bid_min, bid_max]` and the correction factor stays positive |

## Left out

- The budget draw `rng.uniform(*budget_per_iter_range)` (src/Bidder.py:43) is randomness. The budget is a parameter instead.
- `fitf`, `fit_model` and `spend2value` (src/Bidder.py:175-197) wrap `scipy.optimize.curve_fit` and a square root. The fit is an oracle parameter. `spend2value` appears only through the squared identity in `OptSpendBreaksEven`.
- IEEE-754 rounding, infinities and NaN are not modelled; all arithmetic is over exact reals. `np.mean`, `np.minimum` and `np.maximum` are modelled on ordinary numbers only.
- SpbBidder.OptimalBudget: with `a == 0` and `b >= 1`, numpy yields -inf or NaN. The model returns -1.0 in their place. Every later use only tests `optimal_budget > 0`, which all three fail.
- Plotting, `print`, `clear_logs`, the unused `update` arguments and the imported learning modules do not affect control state.
- `TruthfulBidder` (src/Bidder.py:29-36) is the unbudgeted `value * CTR` bid, already the body of `Budget.TruthfulBid`.
- The `rounds_per_iter` of `MPCBidder` is stored but never used; it is kept in the configuration only.
- The commented-out `MPCBidder.reset` (src/Bidder.py:319-327) is not part of the program.
- ImpcBidder.ChargeRoundsDrift: the bound is stated as `Allowance(n, bid_step)`, `n` steps added one at a time. Its equality with `n * bid_step` is the separate lemma `AllowanceIsProduct`.
- ImpcBidder.ImpcCharge: the history-length and suffix properties are stated for `memory >= 1` only. For `memory <= 0` the model follows Python's slice exactly (see `Common.PySuffix`), but no length bound is claimed.
- SpbBidder.SpbUpdate: the history bounds are stated for `spb_memory >= 1` only, for the same reason.
- MpcBidder.MpcUpdate: the history bounds are stated for `memory >= 1` only, for the same reason.
- SpbBidder.SpbUpdate: requires `prices` and `won_mask` to have equal lengths. A mismatched boolean mask makes numpy raise `IndexError`, which the model does not represent.
- MpcBidder.MpcUpdate: requires `estimated_CTRs`, `values` and `won_mask` to have equal lengths. Mismatched lengths make numpy raise (a broadcast error or `IndexError`), which the model does not represent.

=== FILE: budget.dfy ===
/** `BudgetRistrictedBidder` and `TruthfulBudgetRistricctedBidder` (src/Bidder.py): the
    per-iteration spend record every constrained controller keeps, and the budget gate
    that silences a controller once its spending has reached its budget. */
module Budget {
  import opened Common

  /** `budget` is drawn once at construction; `spending` is the price paid so far in the
      current iteration. */
  datatype Account = Account(budget: real, spending: real)

  function NewAccount(budget: real): (a: Account)
    ensures a.budget == budget && a.spending == 0.0
  {
    Account(budget, 0.0)
  }

  /** `charge`: add the price paid for a won round. */
  function Charge(a: Account, price: real): (r: Account)
    ensures r.budget == a.budget
    ensures price >= 0.0 ==> r.spending >= a.spending
  {
    a.(spending := a.spending + price)
  }

  /** `update` at an iteration boundary: spending starts again from zero. */
  function EndIteration(a: Account): (r: Account)
    ensures r.budget == a.budget && r.spending == 0.0
  {
    a.(spending := 0.0)
  }

  /** The gate shared by every `bid`: the proposed amount while budget remains, 0 after. */
  function Gate(a: Account, amount: real): (r: real)
    ensures a.spending >= a.budget ==> r == 0.0
    ensures a.spending < a.budget ==> r == amount
  {
    if a.spending < a.budget then amount else 0.0
  }

  /** `TruthfulBudgetRistricctedBidder.bid`. */
  function TruthfulBid(a: Account, value: real, estimatedCtr: real): (r: real)
    ensures a.spending >= a.budget ==> r == 0.0
    ensures a.spending < a.budget ==> r == value * estimatedCtr
  {
    Gate(a, value * estimatedCtr)
  }

  /** The account after paying each price in turn. */
  function ChargeAll(a: Account, prices: seq<real>): Account
  {
    if prices == [] then a else Charge(ChargeAll(a, prices[..|prices| - 1]), prices[|prices| - 1])
  }

  /** Spending within an iteration is the sum of the prices paid, the budget never moves,
      and with non-negative prices spending never decreases. */
  lemma {:induction false} ChargeAllSpending(a: Account, prices: seq<real>)
    ensures ChargeAll(a, prices).budget == a.budget
    ensures ChargeAll(a, prices).spending == a.spending + Sum(prices)
    ensures (forall i :: 0 <= i < |prices| ==> prices[i] >= 0.0) ==> ChargeAll(a, prices).spending >= a.spending
  {
    if prices != [] {
      ChargeAllSpending(a, prices[..|prices| - 1]);
    }
  }

  /** Once the budget is exhausted, no sequence of non-negative charges reopens the gate
      before the next iteration boundary. */
  lemma ExhaustedStaysSilent(a: Account, prices: seq<real>, value: real, estimatedCtr: real)
    requires a.spending >= a.budget
    requires forall i :: 0 <= i < |prices| ==> prices[i] >= 0.0
    ensures TruthfulBid(ChargeAll(a, prices), value, estimatedCtr) == 0.0
  {
    ChargeAllSpending(a, prices);
  }
}

=== FILE: common.dfy ===
/** Numeric helpers shared by every bidding controller: the epsilon used by all
    guards, numpy-style minimum/maximum, sums over sequences, and Python's
    negative-start slice `xs[-m:]` that every bounded history uses. */
module Common {

  datatype Option<T> = None | Some(value: T)

  /** The tolerance used by every "close to zero" guard in the controllers. */
  const Eps: real := 0.000001

  function Abs(x: real): real { if x < 0.0 then -x else x }

  /** `np.minimum` / `np.maximum` on two ordinary (non-NaN) numbers. */
  function Min(a: real, b: real): (r: real)
    ensures r <= a && r <= b
    ensures r == a || r == b
  {
    if a <= b then a else b
  }

  function Max(a: real, b: real): (r: real)
    ensures r >= a && r >= b
    ensures r == a || r == b
  {
    if a >= b then a else b
  }

  /** `minimum(maximum(x, lo), hi)`: when the window is empty (lo > hi) the upper end wins. */
  function Clamp(x: real, lo: real, hi: real): (r: real)
    ensures r <= hi
    ensures lo <= hi ==> lo <= r
    ensures lo <= x <= hi ==> r == x
    // outside the window the nearer end is taken
    ensures x >= hi ==> r == hi
    ensures lo <= hi && x <= lo ==> r == lo
    ensures lo > hi ==> r == hi
  {
    Min(Max(x, lo), hi)
  }

  function Sum(xs: seq<real>): real
  {
    if xs == [] then 0.0 else Sum(xs[..|xs| - 1]) + xs[|xs| - 1]
  }

  /** The entries of `xs` whose flag in `mask` is set, in order (numpy boolean masking). */
  function Kept(xs: seq<real>, mask: seq<bool>): (r: seq<real>)
    requires |xs| == |mask|
    ensures |r| <= |xs|
    ensures forall e :: e in r ==> e in xs
    ensures (forall i :: 0 <= i < |mask| ==> mask[i]) ==> r == xs
    ensures (forall i :: 0 <= i < |mask| ==> !mask[i]) ==> r == []
    // exactly the flagged entries are kept
    ensures |r| == CountSet(mask)
    ensures forall i :: 0 <= i < |xs| && mask[i] ==> xs[i] in r
  {
    if xs == [] then []
    else
      var front := Kept(xs[..|xs| - 1], mask[..|mask| - 1]);
      assert forall e :: e in xs[..|xs| - 1] ==> e in xs;
      if mask[|mask| - 1] then
        assert xs == xs[..|xs| - 1] + [xs[|xs| - 1]];
        front + [xs[|xs| - 1]]
      else front
  }

  /** The number of set flags. */
  function CountSet(mask: seq<bool>): nat
  {
    if mask == [] then 0 else CountSet(mask[..|mask| - 1]) + (if mask[|mask| - 1] then 1 else 0)
  }

  /** Masking works piece by piece: it distributes over concatenation, and a single
      entry is kept exactly when its flag is set. Together these pin `Kept` down as the
      flagged entries in their original order. */
  lemma {:induction false} KeptAppend(xs: seq<real>, ys: seq<real>, m: seq<bool>, n: seq<bool>)
    requires |xs| == |m| && |ys| == |n|
    ensures Kept(xs + ys, m + n) == Kept(xs, m) + Kept(ys, n)
    decreases |ys|
  {
    if ys == [] {
      assert xs + ys == xs && m + n == m;
    } else {
      var ys', n' := ys[..|ys| - 1], n[..|n| - 1];
      assert (xs + ys)[..|xs + ys| - 1] == xs + ys' && (m + n)[..|m + n| - 1] == m + n';
      KeptAppend(xs, ys', m, n');
      assert Kept(ys, n) == Kept(ys', n') + (if n[|n| - 1] then [ys[|ys| - 1]] else []);
    }
  }

  lemma KeptSingle(x: real, b: bool)
    ensures Kept([x], [b]) == (if b then [x] else [])
  {
  }

  /** `np.sum(xs[mask])`: the sum of the kept entries, computed without building them. */
  function SumWhere(xs: seq<real>, mask: seq<bool>): (r: real)
    requires |xs| == |mask|
    ensures r == Sum(Kept(xs, mask))
    ensures (forall i :: 0 <= i < |mask| ==> mask[i]) ==> r == Sum(xs)
    ensures (forall i :: 0 <= i < |mask| ==> !mask[i]) ==> r == 0.0
  {
    if xs == [] then 0.0
    else SumWhere(xs[..|xs| - 1], mask[..|mask| - 1]) + (if mask[|mask| - 1] then xs[|xs| - 1] else 0.0)
  }

  lemma {:induction false} SumWhereNonNegative(xs: seq<real>, mask: seq<bool>)
    requires |xs| == |mask|
    requires forall i :: 0 <= i < |xs| ==> xs[i] >= 0.0
    ensures SumWhere(xs, mask) >= 0.0
  {
    if xs != [] {
      SumWhereNonNegative(xs[..|xs| - 1], mask[..|mask| - 1]);
    }
  }

  function MinInt(a: int, b: int): int
  {
    if a <= b then a else b
  }

  /** Python's `xs[-m:]` for any integer `m`: the last `m` entries when `m > 0`,
      everything when `m == 0` (because `-0 == 0`), and `xs` without its first
      `-m` entries when `m < 0`. */
  function PySuffix<T>(xs: seq<T>, m: int): (r: seq<T>)
    ensures m == 0 ==> r == xs
    ensures m >= 1 ==> |r| == MinInt(|xs|, m)
    ensures m >= 1 ==> r == xs[|xs| - |r|..]
    ensures m < 0 ==> r == xs[(if -m <= |xs| then -m else |xs|)..]
  {
    var start: int := if m > 0 then |xs| - m else -m;
    var clipped: int := if start < 0 then 0 else if start > |xs| then |xs| else start;
    xs[clipped..]
  }

  /** `h.append(x); h = h[-m:]`: every bounded history in the controllers. The older
      entries survive as a suffix, the new one is last, and the length depends only on the
      old length and `m`. */
  function Remember(h: seq<real>, x: real, m: int): (r: seq<real>)
    ensures |r| == RememberedLength(|h|, m)
    ensures m >= 1 ==> KeepsNewest(h, x, m, r) && 1 <= |r| <= m && r[|r| - 1] == x
    ensures m == 0 ==> r == h + [x]
  {
    PySuffix(h + [x], m)
  }

  /** `r` is what a memory of `m >= 1` iterations holds once `x` joins `h`: the newest
      `min(|h| + 1, m)` entries of `h + [x]`, in order. */
  predicate KeepsNewest(h: seq<real>, x: real, m: int, r: seq<real>)
  {
    && |r| == MinInt(|h| + 1, m)
    && r == (h + [x])[|h| + 1 - |r|..]
  }

  /** A memory of `m >= 1` iterations never grows past `m`, ends with the entry just
      remembered, and holds the whole history while it has room. */
  lemma {:induction false} KeepsNewestShape(h: seq<real>, x: real, m: int, r: seq<real>)
    requires m >= 1 && KeepsNewest(h, x, m, r)
    ensures 1 <= |r| <= m && r[|r| - 1] == x
    ensures |h| < m ==> r == h + [x]
    ensures |h| >= m ==> r == h[|h| + 1 - m..] + [x]
  {
  }

  /** The length of `(h + [x])[-m:]` for a history of length `n`. */
  function RememberedLength(n: nat, m: int): nat
  {
    if m >= 1 then MinInt(n + 1, m)
    else if m == 0 then n + 1
    else n + 1 - MinInt(-m, n + 1)
  }

  /** Python's `a % n`: `a - n * floor(a / n)`, the remainder of floor division, which
      takes the sign of `n`. */
  function PyMod(a: int, n: int): int
    requires n != 0
  {
    a - n * ((a as real) / (n as real)).Floor
  }

  /** A step boundary is `round % roundsPerStep == 0`. It is written with Dafny's
      Euclidean `%`, and agrees with Python's floored `%` for every sign of either
      operand. */
  predicate IsBoundary(round: int, roundsPerStep: int)
    requires roundsPerStep != 0
    ensures IsBoundary(round, roundsPerStep) <==> PyMod(round, roundsPerStep) == 0
    ensures IsBoundary(round, roundsPerStep) <==> round == (round / roundsPerStep) * roundsPerStep
  {
    RemainderZeroAgrees(round, roundsPerStep);
    round % roundsPerStep == 0
  }

  /** Every multiple of `n` is a boundary. */
  lemma MultipleIsBoundary(k: int, n: int)
    requires n != 0
    ensures IsBoundary(k * n, n)
  {
    RemainderOfMultiple(k, n);
  }

  /** Euclidean and floored remainders vanish on the same inputs. */
  lemma RemainderZeroAgrees(a: int, n: int)
    requires n != 0
    ensures a % n == 0 <==> PyMod(a, n) == 0
    ensures a % n == 0 <==> a == (a / n) * n
  {
    if a % n == 0 {
      ExactQuotient(a / n, n);
      assert a == (a / n) * n;
    }
    if PyMod(a, n) == 0 {
      var f := ((a as real) / (n as real)).Floor;
      assert a == f * n;
      RemainderOfMultiple(f, n);
    }
  }

  /** Dividing a multiple of `n` by `n` over the reals is exact. */
  lemma ExactQuotient(q: int, n: int)
    requires n != 0
    ensures PyMod(q * n, n) == 0
  {
    assert (q * n) as real == (q as real) * (n as real);
    assert ((q * n) as real) / (n as real) == q as real;
  }

  lemma RemainderOfMultiple(k: int, n: int)
    requires n != 0
    ensures (k * n) % n == 0
  {
    var q, m := (k * n) / n, (k * n) % n;
    assert k * n == q * n + m;
    assert (k - q) * n == m;
    SmallMultipleIsZero(k - q, n);
  }

  /** A multiple of `n` in `[0, |n|)` is zero. */
  lemma SmallMultipleIsZero(d: int, n: int)
    requires n != 0 && 0 <= d * n
    requires (n > 0 ==> d * n < n) && (n < 0 ==> d * n < -n)
    ensures d == 0
  {
  }
}

=== FILE: envelope.dfy ===
/** `increasing_subsequence` (src/Bidder.py): the patience-sort "tails" array over the
    spend coordinate. Each sample either extends the array or overwrites the first slot
    whose spend is strictly greater than its own, located by a right-bisection. The array
    stays sorted by spend; it need not stay sorted by bid, because a later sample can
    overwrite an early slot. */
module Envelope {
  import opened Samples

  predicate SpendSorted(t: seq<Sample>)
  {
    forall i, j :: 0 <= i < j < |t| ==> t[i].spend <= t[j].spend
  }

  /** The first slot whose spend is strictly greater than `x`, or `|t|` when there is none. */
  function UpperBound(t: seq<Sample>, x: real): (k: nat)
    ensures k <= |t|
    ensures forall j :: 0 <= j < k ==> t[j].spend <= x
    ensures k < |t| ==> t[k].spend > x
  {
    if t == [] || t[0].spend > x then 0 else 1 + UpperBound(t[1..], x)
  }

  /** The inner `while l < r` loop: a right-bisection on the spend coordinate. */
  method BisectRight(t: seq<Sample>, x: real) returns (l: nat)
    requires SpendSorted(t)
    ensures l == UpperBound(t, x)
  {
    l := 0;
    var r := |t|;
    while l < r
      invariant 0 <= l <= r <= |t|
      invariant forall j :: 0 <= j < l ==> t[j].spend <= x
      invariant forall j :: r <= j < |t| ==> t[j].spend > x
    {
      var mid := (l + r) / 2;
      if x >= t[mid].spend {
        l := mid + 1;
      } else {
        r := mid;
      }
    }
    UpperBoundUnique(t, x, l);
  }

  /** Any cut point with everything before it at most `x` and the slot at it above `x` is
      the upper bound. */
  lemma {:induction false} UpperBoundUnique(t: seq<Sample>, x: real, k: nat)
    requires k <= |t|
    requires forall j :: 0 <= j < k ==> t[j].spend <= x
    requires k < |t| ==> t[k].spend > x
    ensures k == UpperBound(t, x)
  {
    if k > 0 {
      UpperBoundUnique(t[1..], x, k - 1);
    }
  }

  /** One iteration of the outer loop: append `s`, or overwrite the first slot with
      strictly greater spend. */
  function Place(tails: seq<Sample>, s: Sample): (r: seq<Sample>)
    requires SpendSorted(tails)
    ensures SpendSorted(r)
    ensures UpperBound(tails, s.spend) == |tails| ==> r == tails + [s]
    ensures UpperBound(tails, s.spend) < |tails| ==> r == tails[UpperBound(tails, s.spend) := s]
    ensures forall k :: 0 <= k < |r| ==> r[k] == s || r[k] in tails
  {
    var k := UpperBound(tails, s.spend);
    if k == |tails| then tails + [s] else tails[k := s]
  }

  function IncreasingSubsequence(samples: seq<Sample>): (r: seq<Sample>)
    ensures SpendSorted(r)
    ensures |r| <= |samples|
    ensures |r| == 0 <==> |samples| == 0
    ensures forall k :: 0 <= k < |r| ==> r[k] in samples
  {
    if samples == [] then []
    else
      var front := samples[..|samples| - 1];
      var r := Place(IncreasingSubsequence(front), samples[|samples| - 1]);
      assert forall e :: e in front ==> e in samples;
      r
  }

  /** The body of the outer loop: bisect, then append or overwrite. */
  method PlaceLoop(tails: seq<Sample>, s: Sample) returns (r: seq<Sample>)
    requires SpendSorted(tails)
    ensures r == Place(tails, s)
  {
    var l := BisectRight(tails, s.spend);
    if l == |tails| {
      r := tails + [s];
    } else {
      r := tails[l := s];
    }
  }

  lemma PlaceNext(samples: seq<Sample>, i: nat)
    requires i < |samples|
    ensures IncreasingSubsequence(samples[..i + 1]) == Place(IncreasingSubsequence(samples[..i]), samples[i])
  {
    assert samples[..i + 1][..i] == samples[..i];
  }

  /** The function as the source writes it: a `for` over the samples with a bisection inside. */
  method IncreasingSubsequenceLoop(samples: seq<Sample>) returns (result: seq<Sample>)
    ensures result == IncreasingSubsequence(samples)
    ensures SpendSorted(result)
  {
    result := [];
    for i := 0 to |samples|
      invariant result == IncreasingSubsequence(samples[..i])
    {
      PlaceNext(samples, i);
      result := PlaceLoop(result, samples[i]);
    }
    assert samples[..|samples|] == samples;
  }

  /** The tails array is sorted by spend but not by bid: the third sample overwrites slot 0. */
  lemma NotSortedByBid()
    ensures IncreasingSubsequence([Sample(1.0, 5.0), Sample(2.0, 10.0), Sample(3.0, 3.0)])
         == [Sample(3.0, 3.0), Sample(2.0, 10.0)]
  {
    var s := [Sample(1.0, 5.0), Sample(2.0, 10.0), Sample(3.0, 3.0)];
    assert s[..2] == [s[0], s[1]];
    FirstTwoKept();
    assert UpperBound([s[0], s[1]], 3.0) == 0;
  }

  lemma FirstTwoKept()
    ensures IncreasingSubsequence([Sample(1.0, 5.0), Sample(2.0, 10.0)]) == [Sample(1.0, 5.0), Sample(2.0, 10.0)]
  {
    var s := [Sample(1.0, 5.0), Sample(2.0, 10.0)];
    assert s[..1] == [s[0]];
    assert [s[0]][..0] == [];
    assert IncreasingSubsequence([s[0]]) == [s[0]];
    assert UpperBound([s[0]], 10.0) == 1;
  }
}

=== FILE: impc_bidder.dfy ===
/** `IMPCBudgetBidder` and `BidCapBidder` (src/Bidder.py): pacing by inverting the
    observed bid -> spend curve once per step.

    Rounds group into steps of `roundsPerStep` rounds. At every round whose index is a
    multiple of `roundsPerStep` (round 0 included) the controller records the pair
    (current multiplier, spend of the step), asks the solver for the multiplier that
    would have spent the per-step target, moves at most `bidStep` toward it, clears the
    step spend and keeps the last `memory` records. The record is appended before the
    solver runs and the history is cut after, so the solver sees up to `memory + 1`
    records. The per-step target is fixed when the controller is built. */
module ImpcBidder {
  import opened Common
  import opened Samples
  import opened Solver
  import opened Budget

  datatype ImpcConfig = ImpcConfig(roundsPerIter: int, roundsPerStep: int, bidStep: real, memory: int)

  /** The constructor divides by `roundsPerIter` and `charge` takes a remainder by
      `roundsPerStep`; both raise on zero. */
  predicate ValidConfig(c: ImpcConfig)
  {
    c.roundsPerIter != 0 && c.roundsPerStep != 0
  }

  /** A per-iteration amount scaled down to one step. */
  function StepTarget(amount: real, c: ImpcConfig): (r: real)
    requires ValidConfig(c)
    ensures r * (c.roundsPerIter as real) == amount * (c.roundsPerStep as real)
    ensures c.roundsPerStep == c.roundsPerIter ==> r == amount
  {
    amount * (c.roundsPerStep as real) / (c.roundsPerIter as real)
  }

  datatype ImpcState = ImpcState(
    acct: Account,
    stepSpending: real,
    roiBid: real,
    history: seq<Sample>,
    targetStepSpending: real,
    cfg: ImpcConfig)

  /** What every reachable state satisfies: the target still matches the budget, and a
      positive `memory` bounds the history. */
  predicate Inv(st: ImpcState)
  {
    && ValidConfig(st.cfg)
    && st.targetStepSpending == StepTarget(st.acct.budget, st.cfg)
    && (st.cfg.memory >= 1 ==> |st.history| <= st.cfg.memory)
  }

  function NewImpc(budget: real, cfg: ImpcConfig): (st: ImpcState)
    requires ValidConfig(cfg)
    ensures Inv(st) && st.cfg == cfg && st.targetStepSpending == StepTarget(budget, cfg)
    ensures st.acct.budget == budget && st.acct.spending == 0.0 && st.stepSpending == 0.0
    ensures st.roiBid == 1.0 && st.history == []
  {
    ImpcState(NewAccount(budget), 0.0, 1.0, [], StepTarget(budget, cfg), cfg)
  }

  /** Pay `price`: both the iteration and the step spend grow by it. */
  function Observe(st: ImpcState, price: real): (r: ImpcState)
    ensures r.acct == Charge(st.acct, price)
  {
    st.(acct := Charge(st.acct, price), stepSpending := st.stepSpending + price)
  }

  /** The sample one step contributes: the multiplier in force and what it spent. */
  function StepSample(st: ImpcState): Sample
  {
    Sample(st.roiBid, st.stepSpending)
  }

  function Record(st: ImpcState): (r: ImpcState)
    ensures |r.history| == |st.history| + 1
  {
    st.(history := st.history + [StepSample(st)])
  }

  /** `calc_roi_bid`: with (almost) nothing spent this step, raise the multiplier by one
      step to explore; otherwise follow the solver inside a window of one step. */
  function CalcRoiBid(st: ImpcState, target: real): (r: real)
    ensures st.stepSpending < Eps ==> r == st.roiBid + st.cfg.bidStep
    ensures st.cfg.bidStep >= 0.0 ==> st.roiBid - st.cfg.bidStep <= r <= st.roiBid + st.cfg.bidStep
    ensures st.stepSpending >= Eps
        && st.roiBid - st.cfg.bidStep <= Impc(st.history, target) <= st.roiBid + st.cfg.bidStep
        ==> r == Impc(st.history, target)
    // an answer outside the window moves the multiplier a full step toward it
    ensures st.stepSpending >= Eps && st.cfg.bidStep >= 0.0 && Impc(st.history, target) >= st.roiBid + st.cfg.bidStep
        ==> r == st.roiBid + st.cfg.bidStep
    ensures st.stepSpending >= Eps && st.cfg.bidStep >= 0.0 && Impc(st.history, target) <= st.roiBid - st.cfg.bidStep
        ==> r == st.roiBid - st.cfg.bidStep
  {
    if st.stepSpending < Eps then st.roiBid + st.cfg.bidStep
    else Clamp(Impc(st.history, target), st.roiBid - st.cfg.bidStep, st.roiBid + st.cfg.bidStep)
  }

  /** The end of a step boundary: adopt the new multiplier, clear the step spend and keep
      only the last `memory` samples. */
  function CloseStep(st: ImpcState, roi: real): (r: ImpcState)
    ensures r.cfg == st.cfg && r.acct == st.acct && r.targetStepSpending == st.targetStepSpending
    ensures r.roiBid == roi && r.stepSpending == 0.0
    ensures st.cfg.memory >= 1 ==> |r.history| == MinInt(|st.history|, st.cfg.memory)
    ensures st.cfg.memory >= 1 ==> r.history == st.history[|st.history| - |r.history|..]
  {
    st.(roiBid := roi, stepSpending := 0.0, history := PySuffix(st.history, st.cfg.memory))
  }

  /** `IMPCBudgetBidder.charge`. */
  function ImpcCharge(st: ImpcState, price: real, round: int): (r: ImpcState)
    requires ValidConfig(st.cfg)
    ensures r.acct == Charge(st.acct, price)
    ensures r.cfg == st.cfg && r.targetStepSpending == st.targetStepSpending
    // off a boundary nothing but the two spend counters moves
    ensures !IsBoundary(round, st.cfg.roundsPerStep)
        ==> r == st.(acct := Charge(st.acct, price), stepSpending := st.stepSpending + price)
    // on a boundary the step is closed and its sample is the newest in the history
    ensures IsBoundary(round, st.cfg.roundsPerStep) ==> r.stepSpending == 0.0
    ensures IsBoundary(round, st.cfg.roundsPerStep) && st.cfg.memory >= 1
        ==> && |r.history| == MinInt(|st.history| + 1, st.cfg.memory)
            && r.history == (st.history + [Sample(st.roiBid, st.stepSpending + price)])[|st.history| + 1 - |r.history|..]
            && r.history[|r.history| - 1] == Sample(st.roiBid, st.stepSpending + price)
    // the new multiplier: exploration, or at most one step toward the solver's answer,
    // which is computed over the history including this step's sample
    ensures IsBoundary(round, st.cfg.roundsPerStep) && st.stepSpending + price < Eps
        ==> r.roiBid == st.roiBid + st.cfg.bidStep
    ensures IsBoundary(round, st.cfg.roundsPerStep) && st.cfg.bidStep >= 0.0
        ==> st.roiBid - st.cfg.bidStep <= r.roiBid <= st.roiBid + st.cfg.bidStep
    ensures IsBoundary(round, st.cfg.roundsPerStep)
        ==> r.roiBid == CalcRoiBid(Record(Observe(st, price)), st.targetStepSpending)
  {
    var o := Observe(st, price);
    if IsBoundary(round, st.cfg.roundsPerStep) then
      var rec := Record(o);
      assert rec.history == st.history + [Sample(st.roiBid, st.stepSpending + price)];
      assert rec.stepSpending == st.stepSpending + price && rec.roiBid == st.roiBid && rec.cfg == st.cfg;
      CloseStep(rec, CalcRoiBid(rec, st.targetStepSpending))
    else o
  }

  /** `bid`: value times estimated CTR times the multiplier, while budget remains. */
  function ImpcBid(st: ImpcState, value: real, estimatedCtr: real): (r: real)
    ensures st.acct.spending >= st.acct.budget ==> r == 0.0
    ensures st.acct.spending < st.acct.budget ==> r == value * estimatedCtr * st.roiBid
  {
    Gate(st.acct, value * estimatedCtr * st.roiBid)
  }

  /** `update`: only the iteration spend is cleared. */
  function ImpcUpdate(st: ImpcState): (r: ImpcState)
    ensures r.acct.spending == 0.0
    ensures r == st.(acct := r.acct) && r.acct.budget == st.acct.budget
  {
    st.(acct := EndIteration(st.acct))
  }

  /** `reset`: history, iteration spend and multiplier go back to their initial values;
      the step spend is left as it is. */
  function ImpcReset(st: ImpcState): (r: ImpcState)
    ensures r.history == [] && r.acct.spending == 0.0 && r.roiBid == 1.0
    ensures r.stepSpending == st.stepSpending
    ensures r.acct.budget == st.acct.budget && r.cfg == st.cfg && r.targetStepSpending == st.targetStepSpending
  {
    st.(history := [], acct := EndIteration(st.acct), roiBid := 1.0)
  }

  /** `BidCapBidder.charge`: the IMPC step, then the multiplier is capped at 1.0 after
      every charge, boundary or not. */
  function BidCapCharge(st: ImpcState, price: real, round: int): (r: ImpcState)
    requires ValidConfig(st.cfg)
    ensures r.roiBid <= 1.0
    ensures r.roiBid == 1.0 || r.roiBid == ImpcCharge(st, price, round).roiBid
    ensures ImpcCharge(st, price, round).roiBid <= 1.0 ==> r == ImpcCharge(st, price, round)
    ensures r == ImpcCharge(st, price, round).(roiBid := r.roiBid)
  {
    var s := ImpcCharge(st, price, round);
    s.(roiBid := Min(s.roiBid, 1.0))
  }

  // ----- properties over several calls ------------------------------------------------

  lemma {:induction false} InvPreserved(st: ImpcState, price: real, round: int)
    requires Inv(st)
    ensures Inv(ImpcCharge(st, price, round))
    ensures Inv(BidCapCharge(st, price, round))
    ensures Inv(ImpcUpdate(st))
    ensures Inv(ImpcReset(st))
  {
    var r := ImpcCharge(st, price, round);
    if IsBoundary(round, st.cfg.roundsPerStep) && st.cfg.memory >= 1 {
      assert |r.history| <= st.cfg.memory;
    }
  }

  /** `reset` reproduces a freshly built controller with the same budget exactly when the
      step spend is already zero, because `reset` leaves it alone. */
  lemma ResetIsFresh(st: ImpcState)
    requires Inv(st)
    ensures ImpcReset(st) == NewImpc(st.acct.budget, st.cfg) <==> st.stepSpending == 0.0
  {
  }

  datatype Round = Round(price: real, index: int)

  function Prices(rounds: seq<Round>): (ps: seq<real>)
    ensures |ps| == |rounds|
    ensures forall i :: 0 <= i < |rounds| ==> ps[i] == rounds[i].price
  {
    seq(|rounds|, i requires 0 <= i < |rounds| => rounds[i].price)
  }

  /** The controller after being charged for each round in turn (within one iteration). */
  function ChargeRounds(st: ImpcState, rounds: seq<Round>): (r: ImpcState)
    requires ValidConfig(st.cfg)
    ensures r.cfg == st.cfg
  {
    if rounds == [] then st
    else
      var last := rounds[|rounds| - 1];
      ImpcCharge(ChargeRounds(st, rounds[..|rounds| - 1]), last.price, last.index)
  }

  /** A single charge moves the multiplier by at most one `bidStep`. */
  lemma OneChargeOneStep(st: ImpcState, price: real, round: int)
    requires ValidConfig(st.cfg) && st.cfg.bidStep >= 0.0
    ensures Abs(ImpcCharge(st, price, round).roiBid - st.roiBid) <= st.cfg.bidStep
  {
  }

  /** Within an iteration the account of an IMPC controller is the plain account charged
      with the same prices. */
  lemma {:induction false} ChargeRoundsAccount(st: ImpcState, rounds: seq<Round>)
    requires ValidConfig(st.cfg)
    ensures ChargeRounds(st, rounds).acct == ChargeAll(st.acct, Prices(rounds))
  {
    if rounds != [] {
      var front := rounds[..|rounds| - 1];
      ChargeRoundsAccount(st, front);
      assert Prices(front) == Prices(rounds)[..|rounds| - 1];
    }
  }

  /** Across `n` charges the multiplier drifts by at most `n` steps of `bidStep`
      (`Allowance(n, bidStep) == n * bidStep`, see `AllowanceIsProduct`). */
  lemma {:induction false} ChargeRoundsDrift(st: ImpcState, rounds: seq<Round>)
    requires ValidConfig(st.cfg) && st.cfg.bidStep >= 0.0
    ensures Abs(ChargeRounds(st, rounds).roiBid - st.roiBid) <= Allowance(|rounds|, st.cfg.bidStep)
  {
    if rounds != [] {
      var front := rounds[..|rounds| - 1];
      ChargeRoundsDrift(st, front);
      LastRoundOneStep(st, rounds);
      DriftStep(st.roiBid, ChargeRounds(st, front).roiBid, ChargeRounds(st, rounds).roiBid,
                |front|, st.cfg.bidStep);
    }
  }

  /** The induction step of `ChargeRoundsDrift`: one more move of at most `step` adds
      one `step` to the allowance. */
  lemma DriftStep(start: real, before: real, after: real, n: nat, step: real)
    requires Abs(before - start) <= Allowance(n, step)
    requires before - step <= after <= before + step
    ensures Abs(after - start) <= Allowance(n + 1, step)
  {
  }

  lemma LastRoundOneStep(st: ImpcState, rounds: seq<Round>)
    requires ValidConfig(st.cfg) && st.cfg.bidStep >= 0.0 && rounds != []
    ensures var before := ChargeRounds(st, rounds[..|rounds| - 1]).roiBid;
      before - st.cfg.bidStep <= ChargeRounds(st, rounds).roiBid <= before + st.cfg.bidStep
  {
    var last := rounds[|rounds| - 1];
    var mid := ChargeRounds(st, rounds[..|rounds| - 1]);
    OneChargeOneStep(mid, last.price, last.index);
  }

  /** `n` steps of size `step`, added one at a time. */
  function Allowance(n: nat, step: real): real
  {
    if n == 0 then 0.0 else Allowance(n - 1, step) + step
  }

  lemma {:induction false} AllowanceIsProduct(n: nat, step: real)
    ensures Allowance(n, step) == (n as real) * step
  {
    if n > 0 {
      AllowanceIsProduct(n - 1, step);
    }
  }

  /** With non-negative prices, a controller whose budget is exhausted bids 0 for the
      rest of the iteration, whatever it observes. */
  lemma ExhaustedStaysSilent(st: ImpcState, rounds: seq<Round>, value: real, estimatedCtr: real)
    requires ValidConfig(st.cfg)
    requires st.acct.spending >= st.acct.budget
    requires forall i :: 0 <= i < |rounds| ==> rounds[i].price >= 0.0
    ensures ImpcBid(ChargeRounds(st, rounds), value, estimatedCtr) == 0.0
  {
    ChargeRoundsAccount(st, rounds);
    ChargeAllSpending(st.acct, Prices(rounds));
  }
}

=== FILE: mpc_bidder.dfy ===
/** `MPCBidder` (src/Bidder.py): pacing by a PID loop on the realised return on spend.

    Each charged round with a positive price adds to the iteration spend and to the
    estimated value `CTR * value`. At each step boundary the estimated value, corrected
    by the cross-iteration factor `predictionDiff`, is divided by the spend; the error
    against a target ROI of 1.0 drives a PID update of the multiplier, which moves at most
    `bidStep` and is then clamped to `[bidMin, bidMax]`. When nothing has been spent or the
    corrected value is not positive the multiplier instead rises by `bidStep`, capped at
    `bidMax`. The source has no `reset` for this controller; it is commented out. */
module MpcBidder {
  import opened Common
  import opened Budget

  datatype MpcConfig = MpcConfig(
    roundsPerIter: int,
    roundsPerStep: int,
    bidStep: real,
    memory: int,
    kp: real, ki: real, kd: real,
    bidMin: real, bidMax: real)

  /** The proportional, integral and derivative error terms, and the previous proportional one. */
  datatype Pid = Pid(errorP: real, lastErrorP: real, errorI: real, errorD: real)

  datatype MpcState = MpcState(
    acct: Account,
    roiBid: real,
    predictionDiff: real,
    estimatedValue: real,
    valueHistory: seq<real>,
    estimatedValueHistory: seq<real>,
    pid: Pid,
    cfg: MpcConfig)

  /** The per-round data `update` reads, and the realised value total of the iteration. */
  datatype MpcIteration = MpcIteration(estimatedCtrs: seq<real>, values: seq<real>, won: seq<bool>, sumValues: real)

  function NewMpc(budget: real, cfg: MpcConfig): (st: MpcState)
    ensures st.acct == NewAccount(budget) && st.roiBid == 1.0 && st.predictionDiff == 1.0
    ensures st.estimatedValue == 0.0 && st.valueHistory == [] && st.estimatedValueHistory == []
    ensures st.pid == Pid(0.0, 0.0, 0.0, 0.0) && st.cfg == cfg
  {
    MpcState(NewAccount(budget), 1.0, 1.0, 0.0, [], [], Pid(0.0, 0.0, 0.0, 0.0), cfg)
  }

  /** The ROI the controller aims for. */
  const RoiTarget: real := 1.0

  /** Accumulate the round: only a positive price counts. */
  function Accrue(st: MpcState, price: real, estimatedCtr: real, value: real): (r: MpcState)
    ensures price <= 0.0 ==> r == st
    ensures price > 0.0 ==> r.acct == Charge(st.acct, price) && r.estimatedValue == st.estimatedValue + estimatedCtr * value
    ensures r == st.(acct := r.acct, estimatedValue := r.estimatedValue)
  {
    if price > 0.0 then
      st.(acct := Charge(st.acct, price), estimatedValue := st.estimatedValue + estimatedCtr * value)
    else st
  }

  /** The PID control signal `kp * e_p + ki * e_i + kd * e_d` for the updated error terms. */
  function Control(c: MpcConfig, e: Pid): (r: real)
    // with non-negative gains the signal follows the sign of the errors
    ensures c.kp >= 0.0 && c.ki >= 0.0 && c.kd >= 0.0 && e.errorP >= 0.0 && e.errorI >= 0.0 && e.errorD >= 0.0
        ==> r >= 0.0
    ensures c.kp >= 0.0 && c.ki >= 0.0 && c.kd >= 0.0 && e.errorP <= 0.0 && e.errorI <= 0.0 && e.errorD <= 0.0
        ==> r <= 0.0
    // a pure proportional controller
    ensures c.ki == 0.0 && c.kd == 0.0 ==> r == c.kp * e.errorP
  {
    c.kp * e.errorP + c.ki * e.errorI + c.kd * e.errorD
  }

  /** Where the multiplier goes under control signal `u`: at most one step from `roi`,
      then into `[bidMin, bidMax]`. */
  function Steer(roi: real, u: real, c: MpcConfig): (r: real)
    // inside both windows the control signal is applied as is
    ensures c.bidStep >= 0.0 && Abs(u) <= c.bidStep && c.bidMin <= roi + u <= c.bidMax ==> r == roi + u
    // the result moves in the direction of the signal, unless the range forces it back
    ensures c.bidStep >= 0.0 && u >= 0.0 ==> r >= Min(roi, c.bidMax)
    ensures c.bidStep >= 0.0 && u <= 0.0 ==> r <= Max(roi, c.bidMin)
    // the range always wins, and the step window holds when it starts in range
    ensures c.bidMin <= c.bidMax ==> c.bidMin <= r <= c.bidMax
    ensures c.bidStep >= 0.0 && c.bidMin <= roi <= c.bidMax ==> Abs(r - roi) <= c.bidStep
    // a signal of a step or more moves a full step, when the range allows it
    ensures u >= c.bidStep && c.bidMin <= roi + c.bidStep <= c.bidMax ==> r == roi + c.bidStep
    ensures c.bidStep >= 0.0 && u <= -c.bidStep && c.bidMin <= roi - c.bidStep <= c.bidMax ==> r == roi - c.bidStep
    // a move that would leave the range saturates at its end
    ensures c.bidStep >= 0.0 && c.bidMin <= roi <= c.bidMax && u >= 0.0 && roi + Min(u, c.bidStep) >= c.bidMax
        ==> r == c.bidMax
    ensures c.bidStep >= 0.0 && c.bidMin <= roi <= c.bidMax && u <= 0.0 && roi - Min(-u, c.bidStep) <= c.bidMin
        ==> r == c.bidMin
  {
    var stepped := Clamp(roi + u, roi - c.bidStep, roi + c.bidStep);
    Clamp(stepped, c.bidMin, c.bidMax)
  }

  /** The PID step at a boundary where spend and corrected value are both positive. */
  function PidStep(st: MpcState): (r: MpcState)
    requires st.acct.spending > 0.0
    ensures r.pid.errorP == st.estimatedValue * st.predictionDiff / st.acct.spending - RoiTarget
    ensures r.pid.errorI == st.pid.errorI + r.pid.errorP
    ensures r.pid.errorD == r.pid.errorP - st.pid.lastErrorP
    ensures r.pid.lastErrorP == r.pid.errorP
    ensures r == st.(pid := r.pid, roiBid := r.roiBid)
    ensures r.roiBid == Steer(st.roiBid, Control(st.cfg, r.pid), st.cfg)
  {
    var roi := st.estimatedValue * st.predictionDiff / st.acct.spending;
    var errorP := roi - RoiTarget;
    var errorI := st.pid.errorI + errorP;
    var errorD := errorP - st.pid.lastErrorP;
    var e := Pid(errorP, errorP, errorI, errorD);
    st.(pid := e, roiBid := Steer(st.roiBid, Control(st.cfg, e), st.cfg))
  }

  /** `MPCBidder.charge`. */
  function MpcCharge(st: MpcState, price: real, round: int, estimatedCtr: real, value: real): (r: MpcState)
    requires st.cfg.roundsPerStep != 0
    ensures r.cfg == st.cfg && r.predictionDiff == st.predictionDiff
    ensures r.valueHistory == st.valueHistory && r.estimatedValueHistory == st.estimatedValueHistory
    // a non-positive price leaves the accumulators alone
    ensures price <= 0.0 ==> r.acct == st.acct && r.estimatedValue == st.estimatedValue
    ensures price > 0.0
        ==> r.acct == Charge(st.acct, price) && r.estimatedValue == st.estimatedValue + estimatedCtr * value
    ensures !IsBoundary(round, st.cfg.roundsPerStep) ==> r.roiBid == st.roiBid && r.pid == st.pid
    // the PID branch
    ensures IsBoundary(round, st.cfg.roundsPerStep) && r.acct.spending > 0.0 && r.estimatedValue * r.predictionDiff > 0.0
        ==> && r.pid.errorI == st.pid.errorI + r.pid.errorP
            && r.pid.lastErrorP == r.pid.errorP
            && r.pid.errorD == r.pid.errorP - st.pid.lastErrorP
            && r.pid.errorP == r.estimatedValue * r.predictionDiff / r.acct.spending - RoiTarget
            && r.roiBid == Steer(st.roiBid, Control(st.cfg, r.pid), st.cfg)
    // the exploration branch
    ensures IsBoundary(round, st.cfg.roundsPerStep) && !(r.acct.spending > 0.0 && r.estimatedValue * r.predictionDiff > 0.0)
        ==> r.pid == st.pid && r.roiBid == Min(st.cfg.bidMax, st.roiBid + st.cfg.bidStep)
  {
    var a := Accrue(st, price, estimatedCtr, value);
    if IsBoundary(round, st.cfg.roundsPerStep) then
      if a.acct.spending > 0.0 && a.estimatedValue * a.predictionDiff > 0.0 then PidStep(a)
      else a.(roiBid := Min(a.cfg.bidMax, a.roiBid + a.cfg.bidStep))
    else a
  }

  /** `bid`: the same budget gate as the IMPC controllers. */
  function MpcBid(st: MpcState, value: real, estimatedCtr: real): (r: real)
    ensures st.acct.spending >= st.acct.budget ==> r == 0.0
    ensures st.acct.spending < st.acct.budget ==> r == value * estimatedCtr * st.roiBid
  {
    Gate(st.acct, value * estimatedCtr * st.roiBid)
  }

  /** The correction factor: realised over estimated value, only when both exceed 1. */
  function PredictionDiff(valueSum: real, estimatedSum: real): (r: real)
    ensures r > 0.0
    ensures valueSum > 1.0 && estimatedSum > 1.0 ==> r * estimatedSum == valueSum
    ensures !(valueSum > 1.0 && estimatedSum > 1.0) ==> r == 1.0
  {
    if valueSum > 1.0 && estimatedSum > 1.0 then valueSum / estimatedSum else 1.0
  }

  /** `MPCBidder.update`. */
  function MpcUpdate(st: MpcState, data: Option<MpcIteration>): (r: MpcState)
    requires data.Some? ==> |data.value.estimatedCtrs| == |data.value.values| == |data.value.won|
    ensures r.acct == EndIteration(st.acct) && r.estimatedValue == 0.0
    ensures r.roiBid == st.roiBid && r.pid == st.pid && r.cfg == st.cfg
    ensures data.None?
        ==> (r.predictionDiff == st.predictionDiff
             && r.valueHistory == st.valueHistory && r.estimatedValueHistory == st.estimatedValueHistory)
    ensures data.Some? && st.cfg.memory >= 1
        ==> && 1 <= |r.valueHistory| <= st.cfg.memory && 1 <= |r.estimatedValueHistory| <= st.cfg.memory
            && r.valueHistory[|r.valueHistory| - 1] == data.value.sumValues
            && r.estimatedValueHistory[|r.estimatedValueHistory| - 1]
               == SumWhere(WonValues(data.value.estimatedCtrs, data.value.values), data.value.won)
    // each history keeps its newest entries, this iteration's last
    ensures data.Some? && st.cfg.memory >= 1
        ==> var won := SumWhere(WonValues(data.value.estimatedCtrs, data.value.values), data.value.won);
            && KeepsNewest(st.valueHistory, data.value.sumValues, st.cfg.memory, r.valueHistory)
            && KeepsNewest(st.estimatedValueHistory, won, st.cfg.memory, r.estimatedValueHistory)
    ensures |st.valueHistory| == |st.estimatedValueHistory| ==> |r.valueHistory| == |r.estimatedValueHistory|
    ensures data.Some? ==> r.predictionDiff == PredictionDiff(Sum(r.valueHistory), Sum(r.estimatedValueHistory))
    ensures st.predictionDiff > 0.0 ==> r.predictionDiff > 0.0
  {
    var cleared := st.(acct := EndIteration(st.acct), estimatedValue := 0.0);
    if data.None? then cleared
    else
      var d := data.value;
      Absorb(cleared, d.sumValues, SumWhere(WonValues(d.estimatedCtrs, d.values), d.won))
  }

  /** Remember one iteration's realised value and won estimated value, and recalibrate. */
  function Absorb(st: MpcState, value: real, won: real): (r: MpcState)
    ensures r == st.(valueHistory := r.valueHistory, estimatedValueHistory := r.estimatedValueHistory,
                     predictionDiff := r.predictionDiff)
    ensures st.cfg.memory >= 1
        ==> && KeepsNewest(st.valueHistory, value, st.cfg.memory, r.valueHistory)
            && KeepsNewest(st.estimatedValueHistory, won, st.cfg.memory, r.estimatedValueHistory)
            && 1 <= |r.valueHistory| <= st.cfg.memory && r.valueHistory[|r.valueHistory| - 1] == value
            && 1 <= |r.estimatedValueHistory| <= st.cfg.memory
            && r.estimatedValueHistory[|r.estimatedValueHistory| - 1] == won
    ensures |st.valueHistory| == |st.estimatedValueHistory| ==> |r.valueHistory| == |r.estimatedValueHistory|
    ensures r.predictionDiff == PredictionDiff(Sum(r.valueHistory), Sum(r.estimatedValueHistory))
    ensures r.predictionDiff > 0.0
  {
    Recalibrate(st, Remember(st.valueHistory, value, st.cfg.memory),
                Remember(st.estimatedValueHistory, won, st.cfg.memory))
  }

  /** Install the new histories and recompute the correction factor from them. */
  function Recalibrate(st: MpcState, values: seq<real>, estimated: seq<real>): (r: MpcState)
    ensures r == st.(valueHistory := values, estimatedValueHistory := estimated, predictionDiff := r.predictionDiff)
    ensures r.predictionDiff == PredictionDiff(Sum(values), Sum(estimated)) && r.predictionDiff > 0.0
  {
    st.(valueHistory := values, estimatedValueHistory := estimated,
        predictionDiff := PredictionDiff(Sum(values), Sum(estimated)))
  }

  /** `np.multiply(estimated_CTRs, values)`. */
  function WonValues(ctrs: seq<real>, values: seq<real>): (r: seq<real>)
    requires |ctrs| == |values|
    ensures |r| == |ctrs|
    ensures forall i :: 0 <= i < |r| ==> r[i] == ctrs[i] * values[i]
  {
    seq(|ctrs|, i requires 0 <= i < |ctrs| => ctrs[i] * values[i])
  }

  // ----- properties over several calls ------------------------------------------------

  /** What every reachable state satisfies when the multiplier window is well formed. */
  predicate MpcInv(st: MpcState)
  {
    && st.cfg.roundsPerStep != 0
    && st.predictionDiff > 0.0
    && |st.valueHistory| == |st.estimatedValueHistory|
    && (st.cfg.memory >= 1 ==> |st.valueHistory| <= st.cfg.memory)
    && st.cfg.bidMin <= st.roiBid <= st.cfg.bidMax
  }

  lemma NewMpcInv(budget: real, cfg: MpcConfig)
    requires cfg.roundsPerStep != 0 && cfg.bidMin <= 1.0 <= cfg.bidMax
    ensures MpcInv(NewMpc(budget, cfg))
  {
  }

  /** Charges and iteration updates keep the correction factor positive, the histories
      aligned and bounded, and the multiplier inside `[bidMin, bidMax]`. */
  lemma MpcInvPreserved(st: MpcState, price: real, round: int, estimatedCtr: real, value: real, data: Option<MpcIteration>)
    requires MpcInv(st) && st.cfg.bidStep >= 0.0
    requires data.Some? ==> |data.value.estimatedCtrs| == |data.value.values| == |data.value.won|
    ensures MpcInv(MpcCharge(st, price, round, estimatedCtr, value))
    ensures MpcInv(MpcUpdate(st, data))
  {
  }

  /** Under a positive proportional error the integral term strictly grows at each PID step,
      while the multiplier never leaves `[bidMin, bidMax]`. */
  lemma IntegralGrowsUnderPositiveError(st: MpcState, price: real, round: int, estimatedCtr: real, value: real)
    requires st.cfg.roundsPerStep != 0
    requires IsBoundary(round, st.cfg.roundsPerStep)
    requires var r := MpcCharge(st, price, round, estimatedCtr, value);
      r.acct.spending > 0.0 && r.estimatedValue * r.predictionDiff > RoiTarget * r.acct.spending
    ensures MpcCharge(st, price, round, estimatedCtr, value).pid.errorP > 0.0
    ensures MpcCharge(st, price, round, estimatedCtr, value).pid.errorI > st.pid.errorI
  {
    var r := MpcCharge(st, price, round, estimatedCtr, value);
    var s := r.acct.spending;
    var v := r.estimatedValue * r.predictionDiff;
    assert v > 0.0;
    assert r.pid.errorP == v / s - RoiTarget && r.pid.errorI == st.pid.errorI + r.pid.errorP;
    QuotientAboveOne(v, s);
  }

  /** In the PID branch of a charge the multiplier follows the control signal: applied as
      is inside both windows, and never against its sign except to re-enter the range. */
  lemma ChargeFollowsControl(st: MpcState, price: real, round: int, estimatedCtr: real, value: real)
    requires st.cfg.roundsPerStep != 0 && st.cfg.bidStep >= 0.0
    requires IsBoundary(round, st.cfg.roundsPerStep)
    requires var r := MpcCharge(st, price, round, estimatedCtr, value);
      r.acct.spending > 0.0 && r.estimatedValue * r.predictionDiff > 0.0
    ensures var r := MpcCharge(st, price, round, estimatedCtr, value);
      var u := Control(st.cfg, r.pid);
      && (Abs(u) <= st.cfg.bidStep && st.cfg.bidMin <= st.roiBid + u <= st.cfg.bidMax ==> r.roiBid == st.roiBid + u)
      && (u >= 0.0 ==> r.roiBid >= Min(st.roiBid, st.cfg.bidMax))
      && (u <= 0.0 ==> r.roiBid <= Max(st.roiBid, st.cfg.bidMin))
      && (u >= st.cfg.bidStep && st.cfg.bidMin <= st.roiBid + st.cfg.bidStep <= st.cfg.bidMax
          ==> r.roiBid == st.roiBid + st.cfg.bidStep)
      && (u <= -st.cfg.bidStep && st.cfg.bidMin <= st.roiBid - st.cfg.bidStep <= st.cfg.bidMax
          ==> r.roiBid == st.roiBid - st.cfg.bidStep)
      && (st.cfg.bidMin <= st.roiBid <= st.cfg.bidMax && u >= 0.0 && st.roiBid + Min(u, st.cfg.bidStep) >= st.cfg.bidMax
          ==> r.roiBid == st.cfg.bidMax)
      && (st.cfg.bidMin <= st.roiBid <= st.cfg.bidMax && u <= 0.0 && st.roiBid - Min(-u, st.cfg.bidStep) <= st.cfg.bidMin
          ==> r.roiBid == st.cfg.bidMin)
  {
  }

  lemma QuotientAboveOne(v: real, s: real)
    requires s > 0.0 && v > s
    ensures v / s > 1.0
  {
  }

  datatype MpcRound = MpcRound(price: real, index: int, estimatedCtr: real, value: real)

  function MpcChargeRounds(st: MpcState, rounds: seq<MpcRound>): (r: MpcState)
    requires st.cfg.roundsPerStep != 0
    ensures r.cfg == st.cfg
  {
    if rounds == [] then st
    else
      var last := rounds[|rounds| - 1];
      var mid := MpcChargeRounds(st, rounds[..|rounds| - 1]);
      MpcCharge(mid, last.price, last.index, last.estimatedCtr, last.value)
  }

  /** Over any run of charges the multiplier stays inside `[bidMin, bidMax]` and the
      correction factor stays positive. */
  lemma {:induction false} MpcChargeRoundsInv(st: MpcState, rounds: seq<MpcRound>)
    requires MpcInv(st) && st.cfg.bidStep >= 0.0
    ensures MpcInv(MpcChargeRounds(st, rounds))
  {
    if rounds != [] {
      MpcChargeRoundsInv(st, rounds[..|rounds| - 1]);
      var last := rounds[|rounds| - 1];
      MpcInvPreserved(MpcChargeRounds(st, rounds[..|rounds| - 1]), last.price, last.index, last.estimatedCtr, last.value, None);
    }
  }
}

=== FILE: near_merge.dfy ===
/** `aggregate_near_sample` (src/Bidder.py): collapse runs of samples whose bids sit
    within a relative distance `Eps` of the run's first bid into their coordinate-wise
    mean.

    The loop closes a run when a sample is too far from the run's first bid, and that
    closing sample is thrown away rather than opening the next run. `Scan` keeps that
    behaviour. `ValidSegmentation` is an independent, declarative description of the
    same result: the input splits into runs, each followed by the sample that broke
    it, and the output is the list of the runs' means. */
module NearMerge {
  import opened Common
  import opened Samples

  /** `s` may join the run opened by `first`: its bid is below the first bid scaled up by
      `1 + Eps`. */
  predicate Near(first: Sample, s: Sample)
    // a positive first bid admits every bid at or below it
    ensures first.bid > 0.0 && s.bid <= first.bid ==> Near(first, s)
    // a zero first bid admits only negative bids, so equal zero bids never share a run
    ensures first.bid == 0.0 ==> (Near(first, s) <==> s.bid < 0.0)
    // under a negative first bid the threshold lies below it: not even an equal bid joins
    ensures first.bid < 0.0 && s.bid >= first.bid ==> !Near(first, s)
  {
    s.bid < first.bid * (1.0 + Eps)
  }

  /** For a positive first bid, `Near` is a relative gap below `Eps`. */
  lemma NearIsRelativeGap(first: Sample, s: Sample)
    requires first.bid > 0.0
    ensures Near(first, s) <==> (s.bid - first.bid) / first.bid < Eps
  {
    assert first.bid * (1.0 + Eps) == first.bid + first.bid * Eps;
    assert (s.bid - first.bid) / first.bid < Eps <==> s.bid - first.bid < Eps * first.bid;
  }

  function BidSum(run: seq<Sample>): real
  {
    if run == [] then 0.0 else BidSum(run[..|run| - 1]) + run[|run| - 1].bid
  }

  function SpendSum(run: seq<Sample>): real
  {
    if run == [] then 0.0 else SpendSum(run[..|run| - 1]) + run[|run| - 1].spend
  }

  /** `list(map(np.mean, zip(*run)))`: the coordinate-wise mean of a non-empty run. */
  function Mean(run: seq<Sample>): (m: Sample)
    requires |run| > 0
    ensures m.bid * (|run| as real) == BidSum(run)
    ensures m.spend * (|run| as real) == SpendSum(run)
  {
    Sample(BidSum(run) / (|run| as real), SpendSum(run) / (|run| as real))
  }

  /** The bid total of a run whose bids lie in `[lo, hi]` lies in that band scaled by its length. */
  lemma {:induction false} BidSumBetween(run: seq<Sample>, lo: real, hi: real)
    requires forall i :: 0 <= i < |run| ==> lo <= run[i].bid <= hi
    ensures lo * (|run| as real) <= BidSum(run) <= hi * (|run| as real)
  {
    if run != [] {
      var init := run[..|run| - 1];
      assert forall i :: 0 <= i < |init| ==> init[i] == run[i];
      BidSumBetween(init, lo, hi);
      assert BidSum(run) == BidSum(init) + run[|run| - 1].bid;
      GrowBand(|init| as real, BidSum(init), run[|run| - 1].bid, lo, hi);
    }
  }

  /** The same for the spend total. */
  lemma {:induction false} SpendSumBetween(run: seq<Sample>, lo: real, hi: real)
    requires forall i :: 0 <= i < |run| ==> lo <= run[i].spend <= hi
    ensures lo * (|run| as real) <= SpendSum(run) <= hi * (|run| as real)
  {
    if run != [] {
      var init := run[..|run| - 1];
      assert forall i :: 0 <= i < |init| ==> init[i] == run[i];
      SpendSumBetween(init, lo, hi);
      assert SpendSum(run) == SpendSum(init) + run[|run| - 1].spend;
      GrowBand(|init| as real, SpendSum(init), run[|run| - 1].spend, lo, hi);
    }
  }

  lemma GrowBand(k: real, total: real, x: real, lo: real, hi: real)
    requires lo * k <= total <= hi * k && lo <= x <= hi
    ensures lo * (k + 1.0) <= total + x <= hi * (k + 1.0)
  {
    assert lo * (k + 1.0) == lo * k + lo;
    assert hi * (k + 1.0) == hi * k + hi;
  }

  /** A merged point lies within the range of the run it replaces, coordinate by
      coordinate; in particular a run of equal samples merges to that sample. */
  lemma {:induction false} MeanWithin(run: seq<Sample>, bidLo: real, bidHi: real, spendLo: real, spendHi: real)
    requires |run| > 0
    requires forall i :: 0 <= i < |run| ==> bidLo <= run[i].bid <= bidHi && spendLo <= run[i].spend <= spendHi
    ensures bidLo <= Mean(run).bid <= bidHi && spendLo <= Mean(run).spend <= spendHi
  {
    var m := Mean(run);
    BidSumBetween(run, bidLo, bidHi);
    ScaledBetween(m.bid, |run| as real, bidLo, bidHi);
    SpendSumBetween(run, spendLo, spendHi);
    ScaledBetween(m.spend, |run| as real, spendLo, spendHi);
  }

  lemma ScaledBetween(x: real, n: real, lo: real, hi: real)
    requires n > 0.0 && lo * n <= x * n <= hi * n
    ensures lo <= x <= hi
  {
  }

  /** The loop of `aggregate_near_sample`, one iteration per call: `result` holds the
      means emitted so far and `current` the run being collected. */
  function Scan(rest: seq<Sample>, result: seq<Sample>, current: seq<Sample>): (r: seq<Sample>)
    ensures |result| <= |r| <= |result| + |current| + |rest|
    ensures |current| + |rest| > 0 ==> |r| > |result|
    decreases |rest|
  {
    if rest == [] then
      if |current| > 0 then result + [Mean(current)] else result
    else
      var s := rest[0];
      if |current| == 0 || Near(current[0], s) then
        Scan(rest[1..], result, current + [s])
      else
        Scan(rest[1..], result + [Mean(current)], [])
  }

  function AggregateNearSample(samples: seq<Sample>): (r: seq<Sample>)
    ensures |r| <= |samples|
    ensures |r| == 0 <==> |samples| == 0
  {
    Scan(samples, [], [])
  }

  // ----- declarative description ---------------------------------------------------

  /** A run together with the sample that ended it, if one did. */
  datatype Segment = Segment(run: seq<Sample>, breaker: Option<Sample>)

  predicate IsRun(run: seq<Sample>)
  {
    |run| > 0 && forall k :: 0 < k < |run| ==> Near(run[0], run[k])
  }

  function Pieces(g: Segment): seq<Sample>
  {
    g.run + (if g.breaker.Some? then [g.breaker.value] else [])
  }

  function Flatten(segs: seq<Segment>): seq<Sample>
  {
    if segs == [] then [] else Pieces(segs[0]) + Flatten(segs[1..])
  }

  /** `segs` cuts `samples` into runs; every breaker is far from its run's first bid,
      and only the last segment may end without a breaker. */
  ghost predicate ValidSegmentation(segs: seq<Segment>, samples: seq<Sample>)
  {
    && Flatten(segs) == samples
    && (forall i :: 0 <= i < |segs| ==> IsRun(segs[i].run))
    && (forall i :: 0 <= i < |segs| ==> segs[i].breaker.Some? ==> !Near(segs[i].run[0], segs[i].breaker.value))
    && (forall i :: 0 <= i < |segs| - 1 ==> segs[i].breaker.Some?)
  }

  function Means(segs: seq<Segment>): (r: seq<Sample>)
    requires forall i :: 0 <= i < |segs| ==> |segs[i].run| > 0
    ensures |r| == |segs|
  {
    if segs == [] then [] else [Mean(segs[0].run)] + Means(segs[1..])
  }

  // ----- the two descriptions agree ---------------------------------------------------

  /** The first index at or after `k` whose sample is not near `t[0]`, or `|t|`. */
  function RunEnd(t: seq<Sample>, k: nat): (n: nat)
    requires 1 <= k <= |t|
    ensures k <= n <= |t|
    ensures forall j :: k <= j < n ==> Near(t[0], t[j])
    ensures n < |t| ==> !Near(t[0], t[n])
    decreases |t| - k
  {
    if k < |t| && Near(t[0], t[k]) then RunEnd(t, k + 1) else k
  }

  lemma RunEndIs(t: seq<Sample>, n: nat)
    requires 1 <= n <= |t|
    requires forall j :: 1 <= j < n ==> Near(t[0], t[j])
    requires n < |t| ==> !Near(t[0], t[n])
    ensures RunEnd(t, 1) == n
  {
  }

  /** The segmentation the loop performs, computed front to back. */
  function Segments(t: seq<Sample>): (segs: seq<Segment>)
    ensures ValidSegmentation(segs, t)
    decreases |t|
  {
    if t == [] then []
    else
      var n := RunEnd(t, 1);
      if n == |t| then
        var segs := [Segment(t, None)];
        assert Flatten(segs) == t by { assert Flatten(segs[1..]) == []; }
        segs
      else
        var first := Segment(t[..n], Some(t[n]));
        var rest := Segments(t[n + 1..]);
        var segs := [first] + rest;
        assert segs[1..] == rest;
        assert Flatten(segs) == t by {
          assert Pieces(first) == t[..n + 1];
          assert t == t[..n + 1] + t[n + 1..];
        }
        assert forall i :: 1 <= i < |segs| ==> segs[i] == rest[i - 1];
        segs
  }

  lemma {:induction false} FlattenNonEmpty(segs: seq<Segment>)
    requires |segs| > 0 && |segs[0].run| > 0
    ensures |Flatten(segs)| >= |segs[0].run|
    ensures Flatten(segs)[..|segs[0].run|] == segs[0].run
  {
    assert Flatten(segs) == Pieces(segs[0]) + Flatten(segs[1..]);
  }

  /** Any two valid segmentations of the same samples coincide. */
  lemma {:induction false} SegmentationUnique(a: seq<Segment>, b: seq<Segment>, t: seq<Sample>)
    requires ValidSegmentation(a, t) && ValidSegmentation(b, t)
    ensures a == b
    decreases |t|
  {
    if |a| == 0 || |b| == 0 {
      if |a| > 0 { FlattenNonEmpty(a); }
      if |b| > 0 { FlattenNonEmpty(b); }
      return;
    }
    var x, y := a[0], b[0];
    FirstSegmentShape(a, t);
    FirstSegmentShape(b, t);
    SameRun(a, b, t);
    SameRun(b, a, t);
    assert x.run == y.run;
    assert x == y;
    var t' := t[|Pieces(x)|..];
    assert ValidSegmentation(a[1..], t') by {
      assert forall i :: 0 <= i < |a[1..]| ==> a[1..][i] == a[i + 1];
    }
    assert ValidSegmentation(b[1..], t') by {
      assert forall i :: 0 <= i < |b[1..]| ==> b[1..][i] == b[i + 1];
    }
    SegmentationUnique(a[1..], b[1..], t');
    assert a == [a[0]] + a[1..] && b == [b[0]] + b[1..];
  }

  /** The first segment is a prefix of the samples; it has a breaker exactly when
      samples remain after its run, and the later segments cover the rest. */
  lemma FirstSegmentShape(a: seq<Segment>, t: seq<Sample>)
    requires ValidSegmentation(a, t) && |a| > 0
    ensures |a[0].run| <= |t| && a[0].run == t[..|a[0].run|]
    ensures a[0].breaker.Some? <==> |a[0].run| < |t|
    ensures a[0].breaker.Some? ==> a[0].breaker.value == t[|a[0].run|]
    ensures |Pieces(a[0])| <= |t| && Flatten(a[1..]) == t[|Pieces(a[0])|..]
  {
    var x := a[0];
    assert IsRun(x.run);
    assert Flatten(a) == Pieces(x) + Flatten(a[1..]);
    if x.breaker.None? {
      assert |a| == 1;
      assert Flatten(a[1..]) == [];
    }
  }

  /** The first run of one valid segmentation is no longer than that of another. */
  lemma SameRun(a: seq<Segment>, b: seq<Segment>, t: seq<Sample>)
    requires ValidSegmentation(a, t) && ValidSegmentation(b, t)
    requires |a| > 0 && |b| > 0
    ensures |a[0].run| <= |b[0].run|
  {
    var x, y := a[0], b[0];
    assert IsRun(x.run) && IsRun(y.run);
    FlattenNonEmpty(a);
    FlattenNonEmpty(b);
    var n, m := |x.run|, |y.run|;
    assert t[..n] == x.run && t[..m] == y.run;
    assert forall k :: 0 < k < n ==> t[k] == x.run[k] && Near(t[0], t[k]);
    if y.breaker.Some? {
      assert Flatten(b) == Pieces(y) + Flatten(b[1..]);
      assert t[m] == y.breaker.value && t[0] == y.run[0];
      assert !Near(t[0], t[m]);
    } else {
      assert |b| == 1;
      assert Flatten(b[1..]) == [];
      assert t == y.run;
    }
  }

  lemma {:induction false} MeansAppend(a: seq<Segment>, b: seq<Segment>)
    requires forall i :: 0 <= i < |a| ==> |a[i].run| > 0
    requires forall i :: 0 <= i < |b| ==> |b[i].run| > 0
    ensures Means(a + b) == Means(a) + Means(b)
  {
    if a != [] {
      assert (a + b)[1..] == a[1..] + b;
      MeansAppend(a[1..], b);
    } else {
      assert a + b == b;
    }
  }

  /** Each call of `Scan` emits the means of the segmentation of what it has not yet
      closed: the open run followed by the unread samples. */
  lemma {:induction false} ScanIsMeans(rest: seq<Sample>, result: seq<Sample>, current: seq<Sample>)
    requires |current| == 0 || IsRun(current)
    ensures Scan(rest, result, current) == result + Means(Segments(current + rest))
    decreases |rest|
  {
    var t := current + rest;
    if rest == [] {
      assert t == current;
      if |current| > 0 {
        RunEndIs(t, |t|);
        assert Segments(t) == [Segment(t, None)];
      } else {
        assert t == [];
      }
    } else {
      var s := rest[0];
      if |current| == 0 {
        assert [s] + rest[1..] == t;
        assert current + [s] == [s];
        ScanIsMeans(rest[1..], result, [s]);
      } else if Near(current[0], s) {
        assert current + [s] + rest[1..] == t;
        ScanIsMeans(rest[1..], result, current + [s]);
      } else {
        var n := |current|;
        assert t[..n] == current && t[n] == s && t[n + 1..] == rest[1..];
        RunEndIs(t, n);
        ScanIsMeans(rest[1..], result + [Mean(current)], []);
        assert [] + rest[1..] == rest[1..];
        var segs := Segments(t);
        assert segs == [Segment(current, Some(s))] + Segments(rest[1..]);
        MeansAppend([Segment(current, Some(s))], Segments(rest[1..]));
      }
    }
  }

  /** The output is exactly the run means of the (unique) valid segmentation: every
      merged pair is the mean of a contiguous run of near bids, and the samples that
      broke runs are absent from the output. */
  lemma AggregateIsRunMeans(samples: seq<Sample>, segs: seq<Segment>)
    requires ValidSegmentation(segs, samples)
    ensures forall i :: 0 <= i < |segs| ==> |segs[i].run| > 0
    ensures AggregateNearSample(samples) == Means(segs)
  {
    ScanIsMeans(samples, [], []);
    assert [] + samples == samples;
    SegmentationUnique(segs, Segments(samples), samples);
  }

  /** The sample that closes a run is dropped: with bids 1, 2, 3 every other sample is lost. */
  lemma BreakerIsDropped()
    ensures AggregateNearSample([Sample(1.0, 1.0), Sample(2.0, 2.0), Sample(3.0, 3.0)])
         == [Sample(1.0, 1.0), Sample(3.0, 3.0)]
  {
    var s := [Sample(1.0, 1.0), Sample(2.0, 2.0), Sample(3.0, 3.0)];
    assert [] + [s[0]] == [s[0]] && [] + [s[2]] == [s[2]];
    assert !Near(Sample(1.0, 1.0), Sample(2.0, 2.0));
    assert Scan(s, [], []) == Scan(s[1..], [], [s[0]]);
    assert Mean([Sample(1.0, 1.0)]) == Sample(1.0, 1.0);
    assert Scan(s[1..], [], [s[0]]) == Scan(s[2..], [Sample(1.0, 1.0)], []);
    assert Mean([Sample(3.0, 3.0)]) == Sample(3.0, 3.0);
  }

  /** Two samples at the same bid merge into their coordinate-wise mean. */
  lemma NearDuplicatesMerge()
    ensures AggregateNearSample([Sample(1.0, 2.0), Sample(1.0, 4.0)]) == [Sample(1.0, 3.0)]
  {
    var s := [Sample(1.0, 2.0), Sample(1.0, 4.0)];
    assert Near(s[0], s[1]);
    assert [] + [s[0]] == [s[0]] && [s[0]] + [s[1]] == s;
    assert Scan(s, [], []) == Scan(s[1..], [], [s[0]]);
    assert Scan(s[1..], [], [s[0]]) == Scan([], [], s);
    assert BidSum(s) == 2.0 && SpendSum(s) == 6.0 by {
      assert s[..1] == [s[0]];
    }
  }
}

=== FILE: samples.dfy ===
/** A (bid multiplier, step spend) observation and Python's `sorted` on such pairs:
    lists compare lexicographically, so samples order by bid and then by spend. */
module Samples {

  datatype Sample = Sample(bid: real, spend: real)

  /** Lexicographic order on `[bid, spend]` pairs, as Python compares two-element lists. */
  predicate LexLe(a: Sample, b: Sample)
  {
    a.bid < b.bid || (a.bid == b.bid && a.spend <= b.spend)
  }

  predicate LexSorted(s: seq<Sample>)
  {
    forall i, j :: 0 <= i < j < |s| ==> LexLe(s[i], s[j])
  }

  /** Insert `x` into an already sorted sequence, in front of the first element it does not exceed. */
  function Insert(x: Sample, s: seq<Sample>): (r: seq<Sample>)
    requires LexSorted(s)
    ensures LexSorted(r)
    ensures multiset(r) == multiset(s) + multiset{x}
    ensures forall e :: e in r <==> e == x || e in s
    ensures |r| == |s| + 1
  {
    if s == [] then [x]
    else if LexLe(x, s[0]) then [x] + s
    else
      var tail := Insert(x, s[1..]);
      assert s == [s[0]] + s[1..];
      assert LexLe(s[0], x);
      assert forall k :: 0 <= k < |tail| ==> LexLe(s[0], tail[k]) by {
        forall k | 0 <= k < |tail|
          ensures LexLe(s[0], tail[k])
        {
          assert tail[k] in tail;
          if tail[k] != x {
            var m :| 0 <= m < |s[1..]| && s[1..][m] == tail[k];
            assert s[m + 1] == tail[k];
          }
        }
      }
      PrependSorted(s[0], tail);
      [s[0]] + tail
  }

  lemma PrependSorted(h: Sample, t: seq<Sample>)
    requires LexSorted(t)
    requires forall k :: 0 <= k < |t| ==> LexLe(h, t[k])
    ensures LexSorted([h] + t)
  {
    var r := [h] + t;
    forall i, j | 0 <= i < j < |r|
      ensures LexLe(r[i], r[j])
    {
      if i > 0 {
        assert r[i] == t[i - 1] && r[j] == t[j - 1];
      } else {
        assert r[j] == t[j - 1];
      }
    }
  }

  /** `sorted(samples)`: a lexicographically sorted permutation of the input. */
  function SortSamples(s: seq<Sample>): (r: seq<Sample>)
    ensures LexSorted(r)
    ensures multiset(r) == multiset(s)
    ensures |r| == |s|
  {
    if s == [] then []
    else
      assert s == [s[0]] + s[1..];
      Insert(s[0], SortSamples(s[1..]))
  }
}

=== FILE: solver.dfy ===
/** `liner_solve` and `impc` (src/Bidder.py): invert the observed bid -> spend relation to
    find the bid expected to produce a target spend. Spend is the independent variable
    and bid the dependent one. */
module Solver {
  import opened Common
  import opened Samples
  import opened NearMerge
  import opened Envelope

  /** The value at `x` of the line through `(x1, y1)` and `(x2, y2)`; when the two
      abscissae are within `Eps` of each other the two ordinates are averaged. */
  function LinearSolve(x1: real, y1: real, x2: real, y2: real, x: real): (r: real)
    ensures Abs(x1 - x2) < Eps ==> r == (y1 + y2) / 2.0
    ensures Abs(x1 - x2) >= Eps ==> (r - y1) * (x2 - x1) == (y2 - y1) * (x - x1)
  {
    if Abs(x1 - x2) < Eps then (y1 + y2) / 2.0
    else y1 + (y2 - y1) * (x - x1) / (x2 - x1)
  }

  /** Away from the degenerate case the line passes through both anchors. */
  lemma LinearSolveEndpoints(x1: real, y1: real, x2: real, y2: real)
    requires Abs(x1 - x2) >= Eps
    ensures LinearSolve(x1, y1, x2, y2, x1) == y1
    ensures LinearSolve(x1, y1, x2, y2, x2) == y2
  {
    var d := x2 - x1;
    assert d != 0.0;
    assert (y2 - y1) * d / d == y2 - y1;
  }

  /** Between its anchors the interpolated value stays between the anchors' ordinates. */
  lemma LinearSolveBetween(x1: real, y1: real, x2: real, y2: real, x: real)
    requires x2 - x1 >= Eps
    requires x1 <= x <= x2
    ensures Min(y1, y2) <= LinearSolve(x1, y1, x2, y2, x) <= Max(y1, y2)
  {
    var d := x2 - x1;
    var c := y2 - y1;
    var t := (x - x1) / d;
    assert t * d == x - x1;
    assert 0.0 <= t <= 1.0 by {
      assert x - x1 <= d;
    }
    assert c * (x - x1) / d == c * t by {
      assert c * (x - x1) == (c * t) * d;
    }
    ScaleWithinUnit(c, t);
    assert Abs(x1 - x2) >= Eps;
    assert LinearSolve(x1, y1, x2, y2, x) == y1 + c * t;
  }

  lemma ScaleWithinUnit(c: real, t: real)
    requires 0.0 <= t <= 1.0
    ensures c >= 0.0 ==> 0.0 <= c * t <= c
    ensures c < 0.0 ==> c <= c * t <= 0.0
  {
    assert c - c * t == c * (1.0 - t);
    if c >= 0.0 {
      assert c * (1.0 - t) >= 0.0;
    } else {
      assert (-c) * (1.0 - t) >= 0.0;
      assert (-c) * t >= 0.0;
    }
  }

  /** The cleaned curve the solver walks: sorted, near bids merged, spend made monotone. */
  function Curve(history: seq<Sample>): (env: seq<Sample>)
    ensures SpendSorted(env)
    ensures |env| <= |history|
    ensures |env| == 0 <==> |history| == 0
  {
    IncreasingSubsequence(AggregateNearSample(SortSamples(history)))
  }

  /** The `while` walk of `impc`: the index of the first sample whose spend reaches `target`. */
  function FirstReaching(t: seq<Sample>, target: real): (i: nat)
    ensures i <= |t|
    ensures forall j :: 0 <= j < i ==> t[j].spend < target
    ensures i < |t| ==> t[i].spend >= target
  {
    if t == [] || t[0].spend >= target then 0 else 1 + FirstReaching(t[1..], target)
  }

  /** The lower anchor of the bracket: the sample before index `i`, or the origin. */
  function Below(t: seq<Sample>, i: nat): Sample
    requires i <= |t|
  {
    if i == 0 then Sample(0.0, 0.0) else t[i - 1]
  }

  /** The walk of `impc` over the processed curve: find the bracket of `target` and
      interpolate, or extrapolate through the origin past the last point. */
  function Invert(env: seq<Sample>, target: real): (r: real)
    ensures env == [] ==> r == 1.0
  {
    if |env| == 0 then 1.0
    else
      var i := FirstReaching(env, target);
      if i < |env| then
        var lo := Below(env, i);
        LinearSolve(lo.spend, lo.bid, env[i].spend, env[i].bid, target)
      else
        var last := env[|env| - 1];
        LinearSolve(0.0, 0.0, last.spend, last.bid, target)
  }

  /** `impc`: the bid multiplier expected to spend `target`, read off the cleaned curve. */
  function Impc(history: seq<Sample>, target: real): (r: real)
    ensures history == [] ==> r == 1.0
  {
    Invert(Curve(history), target)
  }

  /** When the target exceeds every spend on the curve, the answer lies on the line
      through the origin and the curve's last point (see `ThroughOrigin`). */
  lemma InvertExtrapolates(env: seq<Sample>, target: real)
    requires SpendSorted(env) && env != []
    requires env[|env| - 1].spend < target
    ensures var last := env[|env| - 1];
      Invert(env, target) == LinearSolve(0.0, 0.0, last.spend, last.bid, target)
  {
    NoneReaches(env, target);
  }

  lemma NoneReaches(t: seq<Sample>, target: real)
    requires SpendSorted(t) && |t| > 0 && t[|t| - 1].spend < target
    ensures FirstReaching(t, target) == |t|
  {
  }

  /** Extrapolation anchored at the origin keeps the ratio bid / spend of the last point. */
  lemma ThroughOrigin(x2: real, y2: real, x: real)
    ensures Abs(x2) >= Eps ==> LinearSolve(0.0, 0.0, x2, y2, x) * x2 == y2 * x
    ensures Abs(x2) < Eps ==> LinearSolve(0.0, 0.0, x2, y2, x) == y2 / 2.0
  {
    assert Abs(0.0 - x2) == Abs(x2);
  }

  /** Otherwise the answer interpolates between the last point with spend below the
      target (or the origin) and the first point whose spend reaches it; because the curve
      is sorted by spend, every later point reaches the target too. */
  lemma InvertInterpolates(env: seq<Sample>, target: real)
    requires SpendSorted(env) && env != []
    requires env[|env| - 1].spend >= target
    ensures var i := FirstReaching(env, target);
      && i < |env|
      && (forall j :: 0 <= j < i ==> env[j].spend < target)
      && (forall j :: i <= j < |env| ==> env[j].spend >= target)
      && Invert(env, target)
         == LinearSolve(Below(env, i).spend, Below(env, i).bid, env[i].spend, env[i].bid, target)
  {
    var i := FirstReaching(env, target);
    assert i < |env|;
    forall j | i <= j < |env|
      ensures env[j].spend >= target
    {
      assert env[i].spend <= env[j].spend;
    }
  }

  /** With a non-degenerate bracket that contains the target, the answer lies between the
      bracket's two bids. */
  lemma InvertWithinBracket(env: seq<Sample>, target: real)
    requires SpendSorted(env) && env != []
    requires env[|env| - 1].spend >= target
    requires var i := FirstReaching(env, target);
      Below(env, i).spend <= target && env[i].spend - Below(env, i).spend >= Eps
    ensures var i := FirstReaching(env, target);
      Min(Below(env, i).bid, env[i].bid) <= Invert(env, target) <= Max(Below(env, i).bid, env[i].bid)
  {
    var i := FirstReaching(env, target);
    var lo := Below(env, i);
    LinearSolveBetween(lo.spend, lo.bid, env[i].spend, env[i].bid, target);
  }

  /** Two samples one unit of bid apart: the second closes the first's run and is dropped,
      so the answer 1.5 comes from extrapolating through the origin and (10, 1). */
  lemma TwoSampleExample()
    ensures Impc([Sample(1.0, 10.0), Sample(2.0, 20.0)], 15.0) == 1.5
  {
    var h := [Sample(1.0, 10.0), Sample(2.0, 20.0)];
    TwoSampleCurve();
    InvertExtrapolates([Sample(1.0, 10.0)], 15.0);
    assert LinearSolve(0.0, 0.0, 10.0, 1.0, 15.0) == 1.5;
  }

  lemma TwoSampleCurve()
    ensures Curve([Sample(1.0, 10.0), Sample(2.0, 20.0)]) == [Sample(1.0, 10.0)]
  {
    var h := [Sample(1.0, 10.0), Sample(2.0, 20.0)];
    assert SortSamples(h) == h by {
      assert h[1..] == [h[1]];
      assert SortSamples([h[1]]) == [h[1]];
    }
    var s := [Sample(1.0, 10.0)];
    TwoSampleMerge();
    assert IncreasingSubsequence(s) == s by {
      assert s[..0] == [];
    }
  }

  lemma TwoSampleMerge()
    ensures AggregateNearSample([Sample(1.0, 10.0), Sample(2.0, 20.0)]) == [Sample(1.0, 10.0)]
  {
    var h := [Sample(1.0, 10.0), Sample(2.0, 20.0)];
    var s := [Sample(1.0, 10.0)];
    assert !Near(h[0], h[1]);
    assert [] + [h[0]] == s;
    assert Scan(h, [], []) == Scan(h[1..], [], s);
    assert Mean(s) == h[0];
    assert Scan(h[1..], [], s) == Scan([], [h[0]], []);
  }
}

=== FILE: spb_bidder.dfy ===
/** `SPBBidder` (src/Bidder.py): IMPC pacing whose per-step target comes from a fitted
    spend -> value response curve `v(s) = (sqrt(b^2 + 2 a s) - b) / a`.

    Once per iteration the controller appends the iteration's realised spend and value
    to two histories of at most `spbMemory` entries and, with at least two entries, asks
    the curve fit for `(a, b)`. A successful fit sets `optimalBudget` to
    `min(opt_spend(a, b), budget)`; otherwise `optimalBudget` is -1, and at each step
    boundary the controller paces to the full budget while capping the multiplier at
    `exploreBidMax`. The least-squares fit itself is an oracle parameter. */
module SpbBidder {
  import opened Common
  import opened Samples
  import opened Budget
  import opened ImpcBidder

  /** `fit_model`'s answer: success with the fitted parameters, or failure. */
  datatype FitOutcome = Fitted(a: real, b: real) | FitFailed

  datatype SpbState = SpbState(
    base: ImpcState,
    spbMemory: int,
    exploreBidMax: real,
    optimalBudget: real,
    spendHistory: seq<real>,
    valueHistory: seq<real>)

  /** The data `update` reads: the round prices, which rounds were won, and the value total. */
  datatype SpbIteration = SpbIteration(prices: seq<real>, won: seq<bool>, sumValues: real)

  function NewSpb(budget: real, cfg: ImpcConfig, spbMemory: int, exploreBidMax: real): (st: SpbState)
    requires ValidConfig(cfg)
    ensures Inv(st.base) && st.base == NewImpc(budget, cfg)
    ensures st.spbMemory == spbMemory && st.exploreBidMax == exploreBidMax
    ensures st.optimalBudget == -1.0 && st.spendHistory == [] && st.valueHistory == []
  {
    SpbState(NewImpc(budget, cfg), spbMemory, exploreBidMax, -1.0, [], [])
  }

  /** `opt_spend`: the spend at which the fitted value equals the spend (see `OptSpendBreaksEven`). */
  function OptSpend(a: real, b: real): (s: real)
    requires a != 0.0
    ensures a * s + 2.0 * b == 2.0
  {
    (2.0 - 2.0 * b) / a
  }

  /** At `s = OptSpend(a, b)` the square root in `v(s)` equals `a s + b` whenever `b <= 2`,
      so `v(s) == s`: the point where the curve breaks even, value for spend. */
  lemma OptSpendBreaksEven(a: real, b: real)
    requires a != 0.0
    ensures var s := OptSpend(a, b);
      && (a * s + b) * (a * s + b) == b * b + 2.0 * a * s
      && (b <= 2.0 ==> a * s + b >= 0.0)
  {
    var s := OptSpend(a, b);
    assert a * s == 2.0 - 2.0 * b;
    assert a * s + b == 2.0 - b;
    assert (2.0 - b) * (2.0 - b) == b * b + 2.0 * (2.0 - 2.0 * b);
  }

  /** `np.minimum(opt_spend(a, b), budget)`. With `a == 0` numpy divides to +inf when
      `b < 1` (so the budget wins) and to -inf or NaN otherwise; both of those only ever
      meet the test `optimal_budget > 0`, which they fail, and -1 stands for them here. */
  function OptimalBudget(a: real, b: real, budget: real): (r: real)
    ensures r > 0.0 ==> r <= budget
    ensures a != 0.0 ==> r == Min(OptSpend(a, b), budget)
    ensures a == 0.0 && b < 1.0 ==> r == budget
    ensures a == 0.0 && b >= 1.0 ==> r <= 0.0
  {
    if a != 0.0 then Min(OptSpend(a, b), budget)
    else if b < 1.0 then budget
    else -1.0
  }

  /** `SPBBidder.charge`: as IMPC, except for the spend target and the exploration cap. */
  function SpbCharge(st: SpbState, price: real, round: int): (r: SpbState)
    requires ValidConfig(st.base.cfg)
    ensures r == st.(base := r.base)
    // everything but the multiplier moves exactly as in the IMPC controller
    ensures r.base == ImpcCharge(st.base, price, round).(roiBid := r.base.roiBid)
    ensures !IsBoundary(round, st.base.cfg.roundsPerStep) ==> r.base == ImpcCharge(st.base, price, round)
    // with a trusted model, pace to its per-step share
    ensures IsBoundary(round, st.base.cfg.roundsPerStep) && st.optimalBudget > 0.0
        ==> r.base.roiBid == CalcRoiBid(Record(Observe(st.base, price)), StepTarget(st.optimalBudget, st.base.cfg))
    // without one, pace to the budget's per-step share and cap the multiplier
    ensures IsBoundary(round, st.base.cfg.roundsPerStep) && st.optimalBudget <= 0.0
        ==> r.base.roiBid == Min(CalcRoiBid(Record(Observe(st.base, price)), StepTarget(st.base.acct.budget, st.base.cfg)), st.exploreBidMax)
    ensures IsBoundary(round, st.base.cfg.roundsPerStep) && st.optimalBudget <= 0.0
        ==> r.base.roiBid <= st.exploreBidMax
  {
    var o := Observe(st.base, price);
    if IsBoundary(round, st.base.cfg.roundsPerStep) then
      var rec := Record(o);
      var roi :=
        if st.optimalBudget > 0.0 then CalcRoiBid(rec, StepTarget(st.optimalBudget, st.base.cfg))
        else Min(CalcRoiBid(rec, StepTarget(st.base.acct.budget, st.base.cfg)), st.exploreBidMax);
      st.(base := CloseStep(rec, roi))
    else st.(base := o)
  }

  /** With a trusted model whose optimum is the whole budget, SPB paces exactly like IMPC. */
  lemma SpbAgreesWithImpc(st: SpbState, price: real, round: int)
    requires Inv(st.base)
    requires st.optimalBudget == st.base.acct.budget && st.optimalBudget > 0.0
    ensures SpbCharge(st, price, round).base == ImpcCharge(st.base, price, round)
  {
  }

  /** Without a trusted model, SPB is IMPC with the multiplier capped at `exploreBidMax`. */
  lemma SpbExploresLikeCappedImpc(st: SpbState, price: real, round: int)
    requires Inv(st.base)
    requires st.optimalBudget <= 0.0
    ensures var impc := ImpcCharge(st.base, price, round);
      IsBoundary(round, st.base.cfg.roundsPerStep)
      ==> SpbCharge(st, price, round).base == impc.(roiBid := Min(impc.roiBid, st.exploreBidMax))
  {
  }

  /** `SPBBidder.update`. A missing iteration record (`contexts is None`) leaves both
      histories alone; the fit is still consulted. */
  function SpbUpdate(st: SpbState, data: Option<SpbIteration>, fit: (seq<real>, seq<real>) -> FitOutcome): (r: SpbState)
    requires data.Some? ==> |data.value.prices| == |data.value.won|
    ensures r.base == ImpcUpdate(st.base)
    ensures r.spbMemory == st.spbMemory && r.exploreBidMax == st.exploreBidMax
    // the two histories stay aligned and bounded
    ensures |st.spendHistory| == |st.valueHistory| ==> |r.spendHistory| == |r.valueHistory|
    ensures st.spbMemory >= 1 && data.Some?
        ==> 1 <= |r.spendHistory| <= st.spbMemory && 1 <= |r.valueHistory| <= st.spbMemory
    // each history keeps its newest entries, this iteration's last
    ensures st.spbMemory >= 1 && data.Some?
        ==> && KeepsNewest(st.spendHistory, SumWhere(data.value.prices, data.value.won), st.spbMemory, r.spendHistory)
            && KeepsNewest(st.valueHistory, data.value.sumValues, st.spbMemory, r.valueHistory)
    ensures data.None? ==> r.spendHistory == st.spendHistory && r.valueHistory == st.valueHistory
    // the model is trusted only after a successful fit over at least two iterations
    ensures |r.spendHistory| < 2 ==> r.optimalBudget == -1.0
    ensures |r.spendHistory| >= 2 && fit(r.spendHistory, r.valueHistory).FitFailed? ==> r.optimalBudget == -1.0
    ensures |r.spendHistory| >= 2 && fit(r.spendHistory, r.valueHistory).Fitted?
        ==> r.optimalBudget == OptimalBudget(fit(r.spendHistory, r.valueHistory).a, fit(r.spendHistory, r.valueHistory).b, st.base.acct.budget)
    ensures r.optimalBudget > 0.0 ==> r.optimalBudget <= st.base.acct.budget
  {
    if data.None? then Refit(st, st.spendHistory, st.valueHistory, fit)
    else
      var d := data.value;
      Refit(st, Remember(st.spendHistory, SumWhere(d.prices, d.won), st.spbMemory),
                Remember(st.valueHistory, d.sumValues, st.spbMemory), fit)
  }

  /** The end of `update` once the histories are settled: consult the fit when there are
      at least two iterations, and clear the iteration spend. */
  function Refit(st: SpbState, spends: seq<real>, values: seq<real>, fit: (seq<real>, seq<real>) -> FitOutcome): (r: SpbState)
    ensures r.base == ImpcUpdate(st.base) && r.spendHistory == spends && r.valueHistory == values
    ensures r.spbMemory == st.spbMemory && r.exploreBidMax == st.exploreBidMax
    ensures |spends| < 2 ==> r.optimalBudget == -1.0
    ensures |spends| >= 2 && fit(spends, values).FitFailed? ==> r.optimalBudget == -1.0
    ensures |spends| >= 2 && fit(spends, values).Fitted?
        ==> r.optimalBudget == OptimalBudget(fit(spends, values).a, fit(spends, values).b, st.base.acct.budget)
    ensures r.optimalBudget > 0.0 ==> r.optimalBudget <= st.base.acct.budget
  {
    var outcome := if |spends| > 1 then fit(spends, values) else FitFailed;
    var optimal := match outcome
      case Fitted(a, b) => OptimalBudget(a, b, st.base.acct.budget)
      case FitFailed => -1.0;
    st.(base := ImpcUpdate(st.base), spendHistory := spends, valueHistory := values, optimalBudget := optimal)
  }

  /** `SPBBidder.reset`: the IMPC reset, and the response model is forgotten. */
  function SpbReset(st: SpbState): (r: SpbState)
    ensures r.base == ImpcReset(st.base)
    ensures r.optimalBudget == -1.0 && r.spendHistory == [] && r.valueHistory == []
    ensures r.spbMemory == st.spbMemory && r.exploreBidMax == st.exploreBidMax
  {
    st.(base := ImpcReset(st.base), optimalBudget := -1.0, spendHistory := [], valueHistory := [])
  }

  /** What every reachable SPB state satisfies. */
  predicate SpbInv(st: SpbState)
  {
    && Inv(st.base)
    && |st.spendHistory| == |st.valueHistory|
    && (st.spbMemory >= 1 ==> |st.spendHistory| <= st.spbMemory)
    && (st.optimalBudget > 0.0 ==> st.optimalBudget <= st.base.acct.budget)
  }

  lemma SpbInvPreserved(st: SpbState, price: real, round: int, data: Option<SpbIteration>, fit: (seq<real>, seq<real>) -> FitOutcome)
    requires SpbInv(st)
    requires data.Some? ==> |data.value.prices| == |data.value.won|
    ensures SpbInv(SpbCharge(st, price, round))
    ensures SpbInv(SpbUpdate(st, data, fit))
    ensures SpbInv(SpbReset(st))
  {
    InvPreserved(st.base, price, round);
  }

  /** `reset` reproduces a fresh SPB controller exactly when the step spend is zero. */
  lemma SpbResetIsFresh(st: SpbState)
    requires SpbInv(st)
    ensures SpbReset(st) == NewSpb(st.base.acct.budget, st.base.cfg, st.spbMemory, st.exploreBidMax)
        <==> st.base.stepSpending == 0.0
  {
    ResetIsFresh(st.base);
  }
}
